=== FILE: README.md ===
# Instance evaluation pipeline: a Dafny model

This project models the core of a service that rates a configured list of
Misskey-family server instances. For every configured instance it:

- discovers the NodeInfo document through `/.well-known/nodeinfo`;
- resolves the reported software version against a registry of known releases;
- applies a vulnerability gate;
- fetches three metadata resources with a retrying JSON fetch;
- computes a score and display fields;
- files the instance as alive, dead or outdated.

The alive list is then sorted by score. The model also covers the
instance-list maintenance script. That script reports duplicated and
malformed entries of the list. It also crawls a federation directory for
Calckey hosts that the list does not contain yet.

Everything is pure functions over immutable data. The network, the clock and
the `semver` library are inputs:

- A request is modelled by what it yields: a `Transport`, which is a response
  with a status and a parsed or failed body, or a failure with `errno`/`type`.
- A retry loop takes the sequence of what its successive requests yield.
- Delays are reported as the number of milliseconds slept, not slept.
- The `semver` functions the core calls are fields of a `Semver` value passed
  in (`clean`, `valid(coerce(..))`, the misskey-dev/misskey range test).
- JSON values are the `Js.Json` datatype. `None` of a `JsValue` is
  JavaScript's `undefined`. Truthiness, `||` and property reads (which throw
  on `null`/`undefined`) are modelled exactly for JSON values.
- A JavaScript `Map` is an insertion-ordered association list
  (`Registry.Registry`). A JavaScript `Set` is an insertion-ordered
  duplicate-free sequence (`InsertionOrder`).
- The tasks finish in an order the program does not fix. The aggregation
  therefore takes the task outcomes as an arbitrary sequence, and every
  property holds for every order.

Modules, one per concept:

| module | file | models |
|---|---|---|
| `Wrappers` | wrappers.dfy | `Option` |
| `Strings` | strings.dfy | `startsWith`, `includes`, ASCII `toLowerCase` |
| `Js` | js.dfy | JSON values, truthiness, `||`, property reads |
| `InsertionOrder` | insertion_order.dfy | JavaScript `Set` insertion order |
| `Fetch` | fetch.dfy | `safeFetch`, `fetchJson` |
| `Discovery` | discovery.dfy | `getNodeinfo`, `safeGetNodeInfo` |
| `Registry` | registry.dfy | `hasVulnerability`, the version `Map`, `getVersions` |
| `Resolver` | resolver.dfy | the version resolution of the per-instance task |
| `Instances` | instances.dfy | a configured instance entry |
| `Evaluator` | evaluator.dfy | the per-instance task |
| `StableSort` | stable_sort.dfy | the stable descending sort |
| `Aggregator` | aggregator.dfy | the end of `getInstancesInfos` |
| `InstanceQ` | instanceq.dfy | `instanceq.js` |

## Model

| member | source | states |
|---|---|---|
| Fetch.SafeFetch | getInstancesInfos.js:16-44 | A 2xx response is returned as is. A 5xx response or a timeout/abort failure gives the retryable `null`. Any other failure gives `false`. Any other response gives `undefined`. Each case holds in both directions. |
| Fetch.JsonAttempt | getInstancesInfos.js:61-73 | One pass of the loop retries exactly on a retryable `null` or on an OK body that parses to JSON `null`. A non-null OK body is the result. Everything else settles to `false`. |
| Fetch.FetchJsonFrom | getInstancesInfos.js:56-76 | From any retry count the loop makes at most 2 requests in total. It sleeps 20 s before every request after the first. Ending early always yields a non-null value. |
| Fetch.FetchJson | getInstancesInfos.js:46-77 | 1 or 2 requests, with 20 s of sleep per retry. A second request happens if and only if the first outcome is retryable. A first pass that settles is the result at once: a good response gives its body, and fatal, non-OK or unparsable outcomes give `false`. Two retryable outcomes give `false`. |
| Fetch.PersistentServerErrorGivesUp | getInstancesInfos.js:34 | A server that always answers 503 is asked twice, 20 s apart, and the call resolves to `false`. |
| Fetch.ConnectTimeoutIsFatal | getInstancesInfos.js:38 | errno `ETIMEDOUT` does not contain "timeout" once lower-cased, so it is fatal. An abort is retryable. |
| Discovery.Find | getInstancesInfos.js:115-117 | `find` returns the first link whose `rel` is the schema URI. It throws when a `null` entry comes before any match. It finds nothing exactly when no entry has that rel and no entry is `null`. |
| Discovery.SelectLink | getInstancesInfos.js:115-123 | The selection throws exactly when, for one of the three rels, a `null` entry comes before that rel's first link (the 1.0 search runs first, so `[2.1 link, null]` throws). Otherwise the chosen link is the first 2.1 link, else the first 2.0 link, else the first 1.0 link. There is no link exactly when no entry is `null` and no known rel occurs. |
| Discovery.WellKnownBody | getInstancesInfos.js:88-106 | The well-known document is defined exactly when the response is OK with a parsable body. |
| Discovery.DocumentBody | getInstancesInfos.js:131-150 | The NodeInfo document: the OK body, `null` after a timeout or abort, `undefined` otherwise. |
| Discovery.GetNodeinfo | getInstancesInfos.js:79-153 | No well-known document means the call throws. A document without a links array gives `null`. With a links array the result follows the link selection, and an empty array gives `null` without a second request. |
| Discovery.SafeGetNodeInfoAsWritten | getInstancesInfos.js:155-165 | The promise chain as written makes 1 to 3 calls, 10 s apart. It makes exactly 3 when the first call gives `undefined` and the second rejects. Its value is that of the last call made, a rejection of the last call giving `null`. |
| Discovery.SafeGetNodeInfo | getInstancesInfos.js:155-165 | The intended retry makes at most 2 calls. The second call happens exactly when the first is indeterminate. A second rejection gives `null`. It never throws. |
| Discovery.AsWrittenAgreesElsewhere | getInstancesInfos.js:161-164 | The written chain and the intended one agree on every input except an `undefined` first call followed by a rejected second call. |
| Discovery.ThirdCallWitness | getInstancesInfos.js:161-164 | Concrete input on which the written chain asks a third time and reports a document, while the intended one gives `null`. |
| Discovery.EmptyLinksGiveNull | getInstancesInfos.js:108-123 | A well-known document with an empty `links` array settles discovery to `null` after one call, in the written chain and the intended one alike. |
| Registry.HasVulnerability | getInstancesInfos.js:180-208 | Only misskey-dev/misskey can be vulnerable, and for it the range test decides. |
| Registry.Lookup | getInstancesInfos.js:283 | `get` finds a record exactly when the key is present, and the record is one of the map's entries. |
| Registry.LookupEntry | getInstancesInfos.js:283 | With unique keys, `get` on an entry's key returns that entry's record. |
| Registry.Set | getInstancesInfos.js:234-238 | `set` keeps an existing key in its position and appends a new key last. |
| Registry.SetLookup | getInstancesInfos.js:234-238 | After `set`, `get` on the key gives the new record, and every other key's record is unchanged. |
| Registry.SetUnique | getInstancesInfos.js:234-238 | `set` on a map with unique keys keeps the keys unique. |
| Registry.SetEntries | getInstancesInfos.js:234-238 | Every entry after `set` was there before or is the new key with its record. |
| Registry.UsedTags | getInstancesInfos.js:231 | Only the first 40 tags, in order, are used: exactly 40 when there are at least 40, and every tag when there are fewer. An unavailable tag list contributes nothing. |
| Registry.ConfiguredRegistryIsEmpty | getInstancesInfos.js:175-178 | With the configured repository list, the registry is empty. |
| Registry.PathIsNotMisskey | getInstancesInfos.js:237 | The "host/owner/name" string handed to `hasVulnerability` is never "misskey-dev/misskey". |
| Registry.AddTagsProperties | getInstancesInfos.js:232-239 | The tag loop keeps keys unique. Every record it writes has a rank below 40 and no vulnerability. A key is present exactly when it was present before or one of the remaining tags cleans to it. |
| Registry.BuildRegistryProperties | getInstancesInfos.js:210-242 | In the built registry keys are unique, ranks are below 40 and nothing is vulnerable. A key is present exactly when one of the first 40 tags of some repository cleans to it. |
| Registry.AddTagsLastWriteWins | getInstancesInfos.js:232-239 | When several tags clean to the same key, the record carries the position and repository of the last of them. |
| Registry.AddTagsKeepsLookup | getInstancesInfos.js:232-239 | Tags that do not clean to a key leave that key's record alone. |
| Resolver.ScanStopsAtFirstZero | getInstancesInfos.js:286-294 | The entry loop returns the first matching rank-0 entry. |
| Resolver.ScanKeepsCurrent | getInstancesInfos.js:285-295 | If no match ranks at or below the current rank, the loop returns the current result. |
| Resolver.ScanFindsLastMinimal | getInstancesInfos.js:286-295 | Without a rank-0 match, the loop returns the last match of the smallest rank (the `>=` lets later ties win). |
| Resolver.ResolvePrefixFacts | getInstancesInfos.js:284-295 | Starting from the default, the prefix stage returns the default or a matching entry. The result ranks at or below 1500 and at or below every match. With no rank-0 match but some match ranked at most 1500 it is the last minimal match. With no match ranked at most 1500 it is the default. |
| Resolver.Resolve | getInstancesInfos.js:281-296 | An exact hit is returned with `just` set, and `just` holds exactly on an exact hit. Otherwise the result is the first rank-0 match; else, when some match ranks at most 1500 (a tie with the default included, because the comparison is `>=`), the last minimal match; else the default misskey-dev/misskey rank 1500. |
| Evaluator.ReportedVersion | getInstancesInfos.js:282 | A version is read exactly when `software.version` is present and a string, and it is that string; otherwise the task throws. |
| Evaluator.GateIsExactVulnerable | getInstancesInfos.js:298-304 | The gate trips exactly on an exact registry hit of a vulnerable release. |
| Evaluator.Strip | getInstancesInfos.js:311-314 | The metadata loses `emojis` and `announcements` and keeps every other field. |
| Evaluator.NonZero | getInstancesInfos.js:324 | The filter keeps exactly the values that are non-zero increments. |
| Evaluator.NonZeroKeepsCounts | getInstancesInfos.js:324 | No zero is kept, and every non-zero increment is kept as often as it occurs, so the mean divides by the true count. |
| Evaluator.NonZeroAppend | getInstancesInfos.js:324 | The filter works element by element in order: filtering a concatenation concatenates the filtered parts. |
| Evaluator.SumBounds | getInstancesInfos.js:328 | A sum of increments in [lo, hi] lies in [n·lo, n·hi]. |
| Evaluator.Value | getInstancesInfos.js:317-332 | The value is 100000 − (rank − 30)·7200, plus the mean of the non-zero daily increments when there are any. The result is NaN exactly when some non-zero increment is not a number. |
| Evaluator.TrendWithinDailyRange | getInstancesInfos.js:322-328 | The chart moves the value by at least the smallest and at most the largest non-zero daily increment. |
| Evaluator.DisplayName | getInstancesInfos.js:339 | The name is the first truthy of: configured name, node name, meta name. Otherwise it is the url. |
| Evaluator.Description | getInstancesInfos.js:340 | The description is the first truthy of: node description, meta description, configured description. Otherwise it is `null`. |
| Evaluator.Langs | getInstancesInfos.js:341 | The languages are the configured ones when truthy, else the nine default codes. |
| Evaluator.Classify | getInstancesInfos.js:274-347 | Each outcome holds exactly under its condition: dead when there is no NodeInfo or when the task is past the gate with a metadata resource missing; outdated on an exact vulnerable hit; alive when it is past the gate with all three resources and a readable `metadata`; escaped on an unreadable version, or on unreadable `metadata` once everything else succeeded. An alive record carries the value, repository, stripped metadata, name, description and languages. |
| Evaluator.AfterDiscovery | getInstancesInfos.js:274-347 | Given what discovery resolved to and what the three fetches returned, the task reports that instance and ends dead, outdated, alive or escaped exactly under the conditions above. An alive or outdated record carries the discovered document, and an alive one the fetched statistics. |
| Evaluator.Evaluate | getInstancesInfos.js:273-348 | The task for one instance, with the intended discovery retry. It reports that instance and ends dead, outdated, alive or escaped exactly under the conditions above, applied to the chain's value and the three `fetchJson` results. An alive or outdated record carries the discovered NodeInfo. |
| Evaluator.EvaluateAsWritten | getInstancesInfos.js:273-348 | The task with the discovery chain as written. It ends dead, outdated, alive or escaped exactly under the same conditions, applied to that chain's value and the three `fetchJson` results. An alive or outdated record carries what the chain yields. |
| Evaluator.EvaluateAgreesWithWrittenChain | getInstancesInfos.js:161-164 | The two tasks give the same outcome unless the first discovery call gives `undefined` and the second rejects. |
| Evaluator.ThirdCallRevivesTask | getInstancesInfos.js:161-164 | On that input, with a document found by the third call, the intended task reports the instance dead while the written one classifies the document. |
| Evaluator.MissingMetaIsDead | getInstancesInfos.js:306-310 | A 404 from `/api/meta` never yields an alive record. |
| Evaluator.BuiltRegistryNeverVulnerable | getInstancesInfos.js:237 | In a registry built from tags, no version is an exact vulnerable hit. |
| Evaluator.BuiltRegistryNeverOutdated | getInstancesInfos.js:298-304 | With a registry built from tags, no instance is ever outdated. |
| Evaluator.ExampleResolvesToDefault | getInstancesInfos.js:281-296 | "13.0.1" against keys "13.0.0" (rank 0) and "12.0.0" resolves to the default rank 1500. |
| Evaluator.ExampleValue | getInstancesInfos.js:317-332 | A chart [5, 0, 0, 10, 0] adds its non-zero mean 7.5 to the rank-1500 base. |
| Evaluator.ExampleInstanceIsAlive | getInstancesInfos.js:274-347 | That instance is alive, not outdated, with value 100000 − 1470·7200 + 7.5. |
| StableSort.Insert | getInstancesInfos.js:362 | Insertion adds exactly one element and keeps non-increasing order. |
| StableSort.InsertKeepsOrderOfEqual | getInstancesInfos.js:362 | An inserted element goes after every element of equal key. |
| StableSort.SortDesc | getInstancesInfos.js:362 | The sort is a permutation and is non-increasing. Elements of equal key keep their input order. |
| Aggregator.SortByValue | getInstancesInfos.js:362 | `alives` sorted by `value \|\| 0` descending: a permutation, stable for equal values. |
| Aggregator.Push | getInstancesInfos.js:277-346 | Each outcome is pushed onto exactly one of the three lists, so the list sizes add up to the number of tasks. |
| Aggregator.PushSortsByVariant | getInstancesInfos.js:277 | Every alive, dead and outdated outcome lands in its own list, and each list holds only outcomes of its kind. |
| Aggregator.PushReportsEachOnce | getInstancesInfos.js:273-348 | The three lists together report every task's instance exactly once. |
| Aggregator.GetInstancesInfos | getInstancesInfos.js:355-367 | A task exception (or a failure of the registry build, which is not modelled) rejects the whole call. Otherwise the lists report every instance exactly once, and `alives` is the stable descending sort of the pushed alive records. |
| Aggregator.EvaluateAll | getInstancesInfos.js:271-349 | Each configured instance gets exactly one outcome, in list order. |
| InsertionOrder.AddAllProperties | instanceq.js:62 | Adding to a `Set` keeps what was there as a prefix, adds no duplicate, and gains exactly the added elements. |
| InsertionOrder.DedupProperties | instanceq.js:69 | `Array.from` of a `Set` holds each added element exactly once. |
| InstanceQ.FindIndex | instanceq.js:7 | `findIndex` gives -1 exactly when the url is absent. Otherwise it gives an index holding the url with no earlier one. |
| InstanceQ.FindIndexIsNotSelf | instanceq.js:7 | The filter keeps entry i exactly when its url occurs before i. |
| InstanceQ.DuplicatedIsRepeats | instanceq.js:7-8 | `duplicated` is exactly the sequence of repeated url occurrences, in list order. |
| InstanceQ.RepeatsAndDistinct | instanceq.js:7-8 | The repeated occurrences together with the distinct urls make up the whole url list. |
| InstanceQ.DuplicatedCounts | instanceq.js:7-8 | A url listed k > 0 times is reported k − 1 times. An unlisted url is never reported. |
| InstanceQ.Invalid | instanceq.js:13-14 | A url is reported exactly when some entry with it has `langs` present and not an array. |
| InstanceQ.InvalidAppend | instanceq.js:13-14 | The report of a concatenated list is the concatenation of the reports, so list order and repetition are kept. |
| InstanceQ.InvalidSnoc | instanceq.js:13-14 | The report of the empty list is empty; one more entry adds its url at the end exactly when its `langs` is present and not an array. |
| InstanceQ.ArrayLangsAreValid | instanceq.js:13-14 | A url whose entries have no `langs` or an array `langs` is never reported. |
| InstanceQ.PageAt | instanceq.js:25-30 | A page holds at most 61 records. It is full only when the listing has 61 records from the offset on. |
| InstanceQ.WantedHosts | instanceq.js:55-64 | A host is collected exactly when some record has it and passes all four tests: not ignored, Calckey, responding or never checked, not already listed. |
| InstanceQ.CrawlCoversRest | instanceq.js:24-67 | From any offset the loop adds the wanted hosts of the rest of the listing: every page is read once and no record is skipped or read twice. |
| InstanceQ.CrawlRequests | instanceq.js:20-66 | From any offset the loop makes one request per 60 remaining records, rounded up, and at least one. |
| InstanceQ.NotIncluded | instanceq.js:18-70 | The crawl returns every wanted host of the directory once, in order of first appearance, using ceil(n/60) requests (one when n is 0). |
| InstanceQ.ListedHostsAreExcluded | instanceq.js:60 | A url already in the list is never returned. |

## Notes on the source behaviour

- **Description.** The NodeInfo description and the meta description come
  before the configured description (line 340). The configured value is the
  last fallback.
- **Retry delay.** The `fetchJson` retry delay is 20 seconds (line 60).
- **Metadata fetches.** The three fetches run one after another (lines
  306-308). The model does not depend on the timing.
- **Errors inside a task.** An exception inside one instance's task is not
  isolated. `Promise.all` rejects and `getInstancesInfos` rejects with it
  (`Aggregator.GetInstancesInfos` returns None). Such exceptions are:
  - a NodeInfo document without `software`;
  - a non-string `version`;
  - a missing `metadata`.
- **Prefix resolution.** Version "13.0.1" against a registry holding
  "13.0.0" at rank 0 resolves to the default rank 1500: "13.0.1" does not
  start with "13.0.0". The value is then 100000 − 1470·7200 + 7.5 for a
  chart whose non-zero increments are 5 and 10
  (`Evaluator.ExampleInstanceIsAlive`).
- **Ties with the default.** A prefix match of rank exactly 1500 replaces
  the default, because the comparison at line 289 is `>=`.
- **Link selection.** The 1.0 search runs first (line 115), so a `null`
  entry anywhere before the first 1.0 link makes `getNodeinfo` throw even
  when a 2.1 link comes earlier.
- **Retryable failures.** Only errors whose `errno` contains "timeout" and
  aborts are retryable. The common connect-timeout errno `ETIMEDOUT` is
  fatal (`Fetch.ConnectTimeoutIsFatal`).
- **JSON `null` body.** An OK response whose JSON body is `null` is retried
  like a server error.

## Left out

- Evaluator.Evaluate: builds on the intended discovery retry
  (`Discovery.SafeGetNodeInfo`), not on the chain as written, and so does
  `Aggregator.EvaluateAll`. The task as the code runs it is
  `Evaluator.EvaluateAsWritten`. The two agree except when the first
  discovery call gives `undefined` and the second rejects
  (`Evaluator.EvaluateAgreesWithWrittenChain`). On that input the written
  chain makes a third call (see Findings).
- HTTP itself, the 30-second abort timers, the User-Agent and headers, and
  logging. They are not modelled; their effect on results is what a
  `Transport` value says.
- The promise-queue scheduler (32 slots) and the once-per-second progress
  interval. Concurrency only affects the order in which tasks finish, and
  every aggregate property holds for every order.
- The internals of `semver.clean`, `semver.valid(semver.coerce(..))` and
  `semver.satisfies`. They are function parameters.
- Loading the YAML instance and ignore lists (`loadyaml`). The lists are
  parameters.
- The GitHub loop of `getVersions`. It only reads a page count from the
  `link` header and records nothing. `versionOutput` and the returned
  registry are passed through unchanged.
- Aggregator.GetInstancesInfos: a rejection of `getVersions` is not
  modelled. `getInstancesInfos` awaits it (line 268) before any task runs,
  so such a rejection rejects the whole call. It happens in three places:
  - a failed GitHub releases request (line 251 has no catch);
  - a `link` header that does not match the page pattern (line 253 reads
    a capture group of a failed match);
  - a tags body that does not parse as JSON (line 226 is not caught).
  `Registry.TagList` folds every tag-fetch failure into `Unavailable`, and
  the model starts from a registry that was built.
- Tag names in the registry are strings. The source reads `name` from each
  tag object; a tag without a string `name` is not modelled.
- Repository strings are modelled by their three parts (host, owner, name).
  `split('/')` on strings of another shape is not modelled.
- Numbers are real numbers, not IEEE doubles: rounding of the mean is not
  modelled.
- Evaluator.Value: a non-numeric chart increment is modelled as NaN. String
  concatenation by `+` is not modelled.
- `extend(true, ...)` deep merging is modelled as building the record's
  fields. Extra fields of the configured entry and the `isAlive`/`value`
  markers of dead records are not carried.
- `toLowerCase` is modelled on ASCII letters only.
- The NodeInfo document's `href` is not modelled. The document request is
  whatever the exchange's second `Transport` says.
- InstanceQ.NotIncluded: the directory is a fixed finite listing. A reply
  that is not JSON (which throws), a non-array reply, and a directory that
  changes between requests are not modelled. A directory that always
  answered with full pages would make the source loop forever.
- The console output of `instanceq.js` (lines 10-11 and 16) is not
  modelled. Only the lists it prints are.

## Findings

| source | as written | input that shows it | evidently intended | confidence | as-written member | corrected member |
|---|---|---|---|---|---|---|
| getInstancesInfos.js:161-164 | the first `.catch` also receives a rejection of the retry started in `.then`, and then starts a third `getNodeinfo` call | first call resolves to `undefined` (NodeInfo document answers 404), second call rejects (no well-known document), third call succeeds | one retry after an indeterminate first call, and `null` when the retry fails | not executed | Discovery.SafeGetNodeInfoAsWritten, Discovery.ThirdCallWitness, Evaluator.EvaluateAsWritten, Evaluator.ThirdCallRevivesTask | Discovery.SafeGetNodeInfo, Evaluator.Evaluate |

=== FILE: aggregator.dfy ===
/** The end of `getInstancesInfos`: the records the tasks pushed, and the
    stable descending sort of `alives`. The order in which tasks finish is
    not fixed by the program, so the outcomes arrive as an arbitrary
    sequence and every statement here holds for every such order. */
module Aggregator {
  import opened Instances
  import opened Wrappers
  import opened Evaluator
  import StableSort

  /** The sort key: the record's value, with NaN sorting as 0. */
  function SortKey(a: AliveRecord): real {
    match a.value
    case Finite(v) => v
    case NotANumber => 0.0
  }

  /** The final sort of the alive records by value, highest first, with a
      stable sort: a permutation of the pushed records, non-increasing in
      value, and records of equal value keep their pushed order. */
  function SortByValue(s: seq<AliveRecord>): (r: seq<AliveRecord>)
    ensures multiset(r) == multiset(s)
    ensures StableSort.SortedDesc(SortKey, r)
    ensures forall k :: StableSort.WithKey(SortKey, r, k) == StableSort.WithKey(SortKey, s, k)
  {
    StableSort.SortDesc(SortKey, s)
  }

  /** The three lists the tasks push to, in push order. */
  datatype Lists = Lists(alives: seq<AliveRecord>, deads: seq<Instance>, outdated: seq<Outcome>)

  /** The instances a set of lists reports, list by list. */
  function Reported(l: Lists): seq<Instance> {
    Alives(l.alives) + l.deads + InstancesOf(l.outdated)
  }

  function RecordInstance(a: AliveRecord): Instance {
    a.instance
  }

  function Alives(s: seq<AliveRecord>): (r: seq<Instance>)
    ensures |r| == |s|
    ensures forall i :: 0 <= i < |s| ==> r[i] == s[i].instance
  {
    StableSort.MapSeq(RecordInstance, s)
  }

  function InstancesOf(os: seq<Outcome>): (r: seq<Instance>)
    ensures |r| == |os|
    ensures forall i :: 0 <= i < |os| ==> r[i] == InstanceOf(os[i])
  {
    StableSort.MapSeq(InstanceOf, os)
  }

  predicate NoneEscaped(os: seq<Outcome>) {
    forall i :: 0 <= i < |os| ==> !os[i].Escaped?
  }

  /** Every outcome pushed to the list its variant names. */
  function Push(os: seq<Outcome>): (l: Lists)
    requires NoneEscaped(os)
    ensures |l.alives| + |l.deads| + |l.outdated| == |os|
    decreases |os|
  {
    if |os| == 0 then Lists([], [], [])
    else Extend(Push(os[..|os| - 1]), os[|os| - 1])
  }

  /** Each list holds exactly the outcomes of its variant. */
  lemma {:induction false} PushSortsByVariant(os: seq<Outcome>)
    requires NoneEscaped(os)
    ensures forall i :: 0 <= i < |os| && os[i].Alive? ==> os[i].record in Push(os).alives
    ensures forall a :: a in Push(os).alives ==> Alive(a) in os
    ensures forall i :: 0 <= i < |os| && os[i].Dead? ==> os[i].instance in Push(os).deads
    ensures forall x :: x in Push(os).deads ==> Dead(x) in os
    ensures forall o :: o in Push(os).outdated <==> o in os && o.Outdated?
    decreases |os|
  {
    if |os| > 0 {
      var init := os[..|os| - 1];
      assert NoneEscaped(init);
      PushSortsByVariant(init);
      assert os == init + [os[|os| - 1]];
    }
  }

  /** The push one finished task performs. */
  function Extend(l: Lists, o: Outcome): (r: Lists)
    requires !o.Escaped?
  {
    match o
    case Alive(rec) => l.(alives := l.alives + [rec])
    case Dead(inst) => l.(deads := l.deads + [inst])
    case Outdated(_, _) => l.(outdated := l.outdated + [o])
  }

  lemma ExtendReportsOnce(l: Lists, o: Outcome)
    requires !o.Escaped?
    ensures multiset(Reported(Extend(l, o))) == multiset(Reported(l)) + multiset{InstanceOf(o)}
  {
    var a, d, u := Alives(l.alives), l.deads, InstancesOf(l.outdated);
    match o
    case Alive(rec) =>
      StableSort.MapAppend(RecordInstance, l.alives, [rec]);
      assert Alives(l.alives + [rec]) == a + [rec.instance];
      StableSort.MultisetSnoc3(a, d, u, rec.instance, 0);
    case Dead(inst) =>
      StableSort.MultisetSnoc3(a, d, u, inst, 1);
    case Outdated(inst, _) =>
      StableSort.MapAppend(InstanceOf, l.outdated, [o]);
      assert InstancesOf(l.outdated + [o]) == u + [inst];
      StableSort.MultisetSnoc3(a, d, u, inst, 2);
  }

  /** Each outcome's instance is reported once, in the list of its variant. */
  lemma {:induction false} PushReportsEachOnce(os: seq<Outcome>)
    requires NoneEscaped(os)
    ensures multiset(Reported(Push(os))) == multiset(InstancesOf(os))
    decreases |os|
  {
    if |os| > 0 {
      var init := os[..|os| - 1];
      assert NoneEscaped(init) by {
        assert forall i :: 0 <= i < |init| ==> init[i] == os[i];
      }
      PushReportsEachOnce(init);
      var o := os[|os| - 1];
      assert Push(os) == Extend(Push(init), o);
      assert os == init + [o];
      ExtendKeepsReporting(Push(init), init, o);
    }
  }

  /** One more push and one more outcome keep the reported instances those
      of the outcomes. */
  lemma ExtendKeepsReporting(l: Lists, init: seq<Outcome>, o: Outcome)
    requires !o.Escaped?
    requires multiset(Reported(l)) == multiset(InstancesOf(init))
    ensures multiset(Reported(Extend(l, o))) == multiset(InstancesOf(init + [o]))
  {
    ExtendReportsOnce(l, o);
    StableSort.MapAppend(InstanceOf, init, [o]);
    StableSort.MultisetStep(Reported(Extend(l, o)), Reported(l), InstancesOf(init + [o]), InstancesOf(init), InstanceOf(o));
  }

  /** The report `getInstancesInfos` resolves to (the registry it also
      returns is passed through unchanged and left out here). */
  datatype Report = Report(alives: seq<AliveRecord>, deads: seq<Instance>, outdated: seq<Outcome>)

  /** Waiting for every task, then the sort: a task whose exception
      escaped rejects the whole call (None). Otherwise every outcome is
      reported in exactly one list and `alives` is the stable descending
      sort of the pushed alive records. */
  function GetInstancesInfos(os: seq<Outcome>): (r: Option<Report>)
    ensures r.None? <==> !NoneEscaped(os)
    ensures r.Some? ==>
      && |r.value.alives| + |r.value.deads| + |r.value.outdated| == |os|
      && multiset(Alives(r.value.alives) + r.value.deads + InstancesOf(r.value.outdated)) == multiset(InstancesOf(os))
      && StableSort.SortedDesc(SortKey, r.value.alives)
      && multiset(r.value.alives) == multiset(Push(os).alives)
      && (forall k :: StableSort.WithKey(SortKey, r.value.alives, k) == StableSort.WithKey(SortKey, Push(os).alives, k))
      && (forall i :: 0 <= i < |os| && os[i].Alive? ==> os[i].record in r.value.alives)
      && (forall a :: a in r.value.alives ==> Alive(a) in os)
  {
    if !NoneEscaped(os) then None
    else
      var l := Push(os);
      PushReportsEachOnce(os);
      PushSortsByVariant(os);
      var sorted := SortByValue(l.alives);
      assert multiset(Alives(sorted)) == multiset(Alives(l.alives)) by {
        StableSort.MapPermutes(RecordInstance, sorted, l.alives);
      }
      assert forall a :: a in sorted <==> a in l.alives by {
        forall a
          ensures a in sorted <==> a in l.alives
        {
          assert a in sorted <==> a in multiset(sorted);
          assert a in l.alives <==> a in multiset(l.alives);
        }
      }
      Some(Report(sorted, l.deads, l.outdated))
  }

  /** One configured instance, one outcome: evaluating every instance
      yields exactly one outcome for it. */
  function EvaluateAll(lib: Registry.Semver, reg: Registry.Registry, instances: seq<Instance>, traffic: seq<Traffic>)
    : (os: seq<Outcome>)
    requires Registry.UniqueKeys(reg)
    requires |traffic| == |instances|
    requires forall i :: 0 <= i < |traffic| ==> Sufficient(traffic[i])
    ensures |os| == |instances|
    ensures InstancesOf(os) == instances
  {
    seq(|instances|, i requires 0 <= i < |instances| => Evaluate(lib, reg, instances[i], traffic[i]))
  }
}

=== FILE: discovery.dfy ===
/** NodeInfo discovery: `getNodeinfo` (well-known document, link choice,
    document fetch) and the retrying wrapper `safeGetNodeInfo`. */
module Discovery {
  import opened Wrappers
  import opened Js
  import opened Fetch

  const Schema10 := "http://nodeinfo.diaspora.software/ns/schema/1.0"
  const Schema20 := "http://nodeinfo.diaspora.software/ns/schema/2.0"
  const Schema21 := "http://nodeinfo.diaspora.software/ns/schema/2.1"

  /** Delay before `safeGetNodeInfo` tries again, in milliseconds. */
  const RediscoverDelayMs: nat := 10000

  /** What the network yields to one `getNodeinfo` call: the answer to
      `GET /.well-known/nodeinfo`, and the answer to `GET` of the href of
      the link that gets selected (used only when one is). */
  datatype Exchange = Exchange(wellKnown: Transport, document: Transport)

  /** How a call of the async `getNodeinfo` settles: its promise rejects
      (an exception was thrown inside), or it resolves to a value. */
  datatype Attempt = Threw | Returned(value: JsValue)

  /** What searching the link list for the first entry with a given rel
      gives. Reading the rel of a `null` entry throws. */
  datatype Found = FindThrew | NotFound | FoundLink(link: Json)

  /** A non-null entry carries the rel `uri`. */
  predicate HasRel(link: Json, uri: string) {
    link.Obj? && "rel" in link.fields && link.fields["rel"] == Str(uri)
  }

  /** `i` is the first index whose entry carries the rel `uri`. */
  ghost predicate FirstWithRel(links: seq<Json>, i: int, uri: string) {
    && 0 <= i < |links|
    && HasRel(links[i], uri)
    && forall j :: 0 <= j < i ==> !HasRel(links[j], uri)
  }

  ghost predicate NoneWithRel(links: seq<Json>, uri: string) {
    forall j :: 0 <= j < |links| ==> !HasRel(links[j], uri)
  }

  /** `i` is the link NodeInfo discovery should follow: the first 2.1 link,
      else the first 2.0 link, else the first 1.0 link. */
  ghost predicate Preferred(links: seq<Json>, i: int) {
    || FirstWithRel(links, i, Schema21)
    || (NoneWithRel(links, Schema21) && FirstWithRel(links, i, Schema20))
    || (NoneWithRel(links, Schema21) && NoneWithRel(links, Schema20) && FirstWithRel(links, i, Schema10))
  }

  /** No `null` among the first `n` entries. */
  ghost predicate NoNullBefore(links: seq<Json>, n: int) {
    forall j :: 0 <= j < n && j < |links| ==> links[j] != Null
  }

  /** A `null` entry comes before any entry carrying the rel `uri`, so the
      search for `uri` reads `.rel` of it. */
  ghost predicate NullBeforeRel(links: seq<Json>, uri: string) {
    exists i :: 0 <= i < |links| && links[i] == Null && NoneWithRel(links[..i], uri)
  }

  /** The first match of `uri`, searching for it, and whether a null stops
      the search first. */
  function Find(links: seq<Json>, uri: string): (r: Found)
    ensures r.FoundLink? <==> exists i :: FirstWithRel(links, i, uri) && NoNullBefore(links, i)
    ensures r.FoundLink? ==> exists i :: FirstWithRel(links, i, uri) && r.link == links[i]
    ensures r.NotFound? <==> NoneWithRel(links, uri) && NoNullBefore(links, |links|)
    ensures r.FindThrew? <==> NullBeforeRel(links, uri)
  {
    if |links| == 0 then NotFound
    else if links[0] == Null then
      assert links[..0] == [];
      FindThrew
    else if HasRel(links[0], uri) then
      assert FirstWithRel(links, 0, uri);
      assert !NullBeforeRel(links, uri) by {
        forall i | 0 <= i < |links| && links[i] == Null
          ensures !NoneWithRel(links[..i], uri)
        {
          assert links[..i][0] == links[0];
        }
      }
      FoundLink(links[0])
    else
      var r := Find(links[1..], uri);
      NullBeforeRelTail(links, uri);
      assert forall i :: FirstWithRel(links[1..], i, uri) ==> FirstWithRel(links, i + 1, uri);
      assert forall i :: FirstWithRel(links, i, uri) ==> i > 0 && FirstWithRel(links[1..], i - 1, uri);
      assert forall i :: NoNullBefore(links[1..], i) ==> NoNullBefore(links, i + 1);
      assert forall i :: 0 < i && NoNullBefore(links, i) ==> NoNullBefore(links[1..], i - 1);
      r
  }

  /** With a head that is neither null nor a match, a null before a match
      is one of the tail. */
  lemma NullBeforeRelTail(links: seq<Json>, uri: string)
    requires |links| > 0 && links[0] != Null && !HasRel(links[0], uri)
    ensures NullBeforeRel(links, uri) <==> NullBeforeRel(links[1..], uri)
  {
    if NullBeforeRel(links, uri) {
      var i :| 0 <= i < |links| && links[i] == Null && NoneWithRel(links[..i], uri);
      assert links[1..][..i - 1] == links[..i][1..];
    }
    if NullBeforeRel(links[1..], uri) {
      var i :| 0 <= i < |links[1..]| && links[1..][i] == Null && NoneWithRel(links[1..][..i], uri);
      assert links[..i + 1] == [links[0]] + links[1..][..i];
    }
  }

  /** The link `getNodeinfo` uses: the three searches run (1.0, 2.0, 2.1),
      then the first of 2.1, 2.0, 1.0 that was found. */
  function SelectLink(links: seq<Json>): (r: Found)
    // a search throws exactly when a null comes before that rel's first link
    ensures r.FindThrew? <==>
      NullBeforeRel(links, Schema10) || NullBeforeRel(links, Schema20) || NullBeforeRel(links, Schema21)
    // without null entries nothing throws
    ensures NoNullBefore(links, |links|) ==> !r.FindThrew?
    // no link at all exactly when there is no null and none carries a known rel
    ensures r.NotFound? <==>
      && NoNullBefore(links, |links|)
      && NoneWithRel(links, Schema21) && NoneWithRel(links, Schema20) && NoneWithRel(links, Schema10)
    // preference: first 2.1 link, else first 2.0 link, else first 1.0 link
    ensures r.FoundLink? ==> exists i :: Preferred(links, i) && r.link == links[i]
    ensures !r.FindThrew? && (exists i :: FirstWithRel(links, i, Schema21)) ==>
      r.FoundLink? && HasRel(r.link, Schema21)
  {
    var l10 := Find(links, Schema10);
    var l20 := Find(links, Schema20);
    var l21 := Find(links, Schema21);
    if l10.FindThrew? || l20.FindThrew? || l21.FindThrew? then FindThrew
    else if l21.FoundLink? then l21
    else if l20.FoundLink? then l20
    else l10
  }

  /** The well-known document: the parsed body of an OK response; any
      other outcome is caught and becomes `undefined`. */
  function WellKnownBody(t: Transport): (r: JsValue)
    ensures r.Some? <==> t.Response? && IsOk(t.status) && t.body.Parsed?
    ensures r.Some? ==> r.value == t.body.json
  {
    if t.Response? && IsOk(t.status) && t.body.Parsed? then Some(t.body.json) else None
  }

  /** The NodeInfo document fetched from the selected href: the parsed body
      of an OK response; `null` after a timeout or abort (of the request or
      of the body read); `undefined` otherwise. */
  function DocumentBody(t: Transport): (r: JsValue)
    ensures t.Response? && IsOk(t.status) && t.body.Parsed? ==> r == Some(t.body.json)
    ensures t.Response? && !IsOk(t.status) ==> r == None
    ensures t.Failure? ==> r == (if IsTimeoutOrAbort(t.errno, t.errType) then Some(Null) else None)
    ensures t.Response? && IsOk(t.status) && t.body.BodyError? ==>
      r == (if IsTimeoutOrAbort(t.body.errno, t.body.errType) then Some(Null) else None)
  {
    match t
    case Response(status, body) =>
      if !IsOk(status) then None
      else (match body
        case Parsed(j) => Some(j)
        case BodyError(errno, errType) => if IsTimeoutOrAbort(errno, errType) then Some(Null) else None)
    case Failure(errno, errType) =>
      if IsTimeoutOrAbort(errno, errType) then Some(Null) else None
  }

  /** The `links` field of the well-known document is an array. */
  predicate HasLinkArray(wellKnown: JsValue) {
    !Nullish(wellKnown) && Get(wellKnown, "links").Some? && Get(wellKnown, "links").value.Arr?
  }

  /** One `getNodeinfo(base)` call. */
  function GetNodeinfo(x: Exchange): (a: Attempt)
    // no usable well-known document: reading `.links` of undefined or null throws
    ensures Nullish(WellKnownBody(x.wellKnown)) ==> a == Threw
    // a document without a `links` array is a definite `null`
    ensures !Nullish(WellKnownBody(x.wellKnown)) && !HasLinkArray(WellKnownBody(x.wellKnown)) ==>
      a == Returned(Some(Null))
    // with a link array the outcome follows the link selection
    ensures HasLinkArray(WellKnownBody(x.wellKnown)) ==>
      var links := Get(WellKnownBody(x.wellKnown), "links").value.items;
      && (SelectLink(links).FindThrew? <==> a == Threw)
      && (SelectLink(links).NotFound? ==> a == Returned(Some(Null)))
      && (SelectLink(links).FoundLink? ==> a == Returned(DocumentBody(x.document)))
    // an empty link list never reaches the second request
    ensures HasLinkArray(WellKnownBody(x.wellKnown)) ==>
      Get(WellKnownBody(x.wellKnown), "links").value.items == [] ==> a == Returned(Some(Null))
  {
    var wellKnown := WellKnownBody(x.wellKnown);
    if Nullish(wellKnown) then Threw
    else
      var links := Get(wellKnown, "links");
      if Nullish(links) || !links.value.Arr? then Returned(Some(Null))
      else
        match SelectLink(links.value.items)
        case FindThrew => Threw
        case NotFound => Returned(Some(Null))
        case FoundLink(_) => Returned(DocumentBody(x.document))
  }

  /** The outcome of `safeGetNodeInfo`: the value it resolves to, how many
      `getNodeinfo` calls it made and how long it slept between them. */
  datatype DiscoveryRun = DiscoveryRun(value: JsValue, attempts: nat, waitedMs: nat)

  /** The first call gives a usable answer when it resolves to anything but
      `undefined`. */
  predicate Settles(a: Attempt) {
    a.Returned? && a.value.Some?
  }

  /** `safeGetNodeInfo` as its promise chain is written: a first call that
      resolves to `undefined` is retried; a rejection is caught and retried;
      a rejection after that becomes `null`. The catch after the first
      retry also receives a rejection of the retry that followed an
      `undefined`, so a third call can happen. */
  function SafeGetNodeInfoAsWritten(attempts: seq<Attempt>): (r: DiscoveryRun)
    requires |attempts| >= 3
    ensures 1 <= r.attempts <= 3
    ensures r.waitedMs == RediscoverDelayMs * (r.attempts - 1)
    ensures r.attempts == 1 <==> Settles(attempts[0])
    ensures r.attempts == 3 <==> attempts[0] == Returned(None) && attempts[1] == Threw
    ensures Settles(attempts[0]) ==> r.value == attempts[0].value
    ensures r.attempts == 2 ==> r.value == (if attempts[1].Threw? then Some(Null) else attempts[1].value)
    ensures r.attempts == 3 ==> r.value == (if attempts[2].Threw? then Some(Null) else attempts[2].value)
  {
    match attempts[0]
    case Returned(Some(j)) => DiscoveryRun(Some(j), 1, 0)
    case Returned(None) =>
      (match attempts[1]
       case Returned(v) => DiscoveryRun(v, 2, RediscoverDelayMs)
       case Threw =>
         match attempts[2]
         case Returned(v) => DiscoveryRun(v, 3, 2 * RediscoverDelayMs)
         case Threw => DiscoveryRun(Some(Null), 3, 2 * RediscoverDelayMs))
    case Threw =>
      match attempts[1]
      case Returned(v) => DiscoveryRun(v, 2, RediscoverDelayMs)
      case Threw => DiscoveryRun(Some(Null), 2, RediscoverDelayMs)
  }

  /** `safeGetNodeInfo` as intended: after an indeterminate first call
      (`undefined`, or a rejection) it tries exactly once more, and a
      second rejection collapses to `null`. */
  function SafeGetNodeInfo(attempts: seq<Attempt>): (r: DiscoveryRun)
    requires |attempts| >= 2
    ensures 1 <= r.attempts <= 2
    ensures r.waitedMs == RediscoverDelayMs * (r.attempts - 1)
    ensures r.attempts == 1 <==> Settles(attempts[0])
    ensures Settles(attempts[0]) ==> r.value == attempts[0].value
    ensures !Settles(attempts[0]) ==>
      r.value == (if attempts[1].Threw? then Some(Null) else attempts[1].value)
    ensures r.value.Some? || (r.attempts == 2 && attempts[1] == Returned(None))
  {
    if Settles(attempts[0]) then DiscoveryRun(attempts[0].value, 1, 0)
    else
      match attempts[1]
      case Returned(v) => DiscoveryRun(v, 2, RediscoverDelayMs)
      case Threw => DiscoveryRun(Some(Null), 2, RediscoverDelayMs)
  }

  /** The two agree except where the written chain makes its third call. */
  lemma {:induction false} AsWrittenAgreesElsewhere(attempts: seq<Attempt>)
    requires |attempts| >= 3
    requires !(attempts[0] == Returned(None) && attempts[1] == Threw)
    ensures SafeGetNodeInfoAsWritten(attempts) == SafeGetNodeInfo(attempts)
  {
    match attempts[0]
    case Returned(v) =>
      if v.None? {
        assert attempts[1].Returned?;
      }
    case Threw =>
  }

  /** The input that exposes the third call: the first call resolves to
      `undefined` (say the NodeInfo document answered 404) and the second
      rejects (say the well-known request failed). The written chain asks a
      third time and can report the instance alive; the intended one gives
      `null` after two calls. */
  lemma ThirdCallWitness(doc: Json)
    requires Truthy(doc)
    ensures var attempts := [Returned(None), Threw, Returned(Some(doc))];
      && SafeGetNodeInfoAsWritten(attempts) == DiscoveryRun(Some(doc), 3, 2 * RediscoverDelayMs)
      && SafeGetNodeInfo(attempts) == DiscoveryRun(Some(Null), 2, RediscoverDelayMs)
  {
  }

  /** The outcomes of the `getNodeinfo` calls for a run of exchanges. */
  function Attempts(exchanges: seq<Exchange>): (r: seq<Attempt>)
    ensures |r| == |exchanges|
    ensures forall k :: 0 <= k < |r| ==> r[k] == GetNodeinfo(exchanges[k])
  {
    seq(|exchanges|, k requires 0 <= k < |exchanges| => GetNodeinfo(exchanges[k]))
  }

  /** A well-known document whose `links` is empty means no usable schema
      link: whatever the second request would give, discovery yields `null`
      without a retry. */
  lemma EmptyLinksGiveNull(exchanges: seq<Exchange>)
    requires |exchanges| >= 3
    requires exchanges[0].wellKnown == Response(200, Parsed(Obj(map["links" := Arr([])])))
    ensures SafeGetNodeInfoAsWritten(Attempts(exchanges)) == DiscoveryRun(Some(Null), 1, 0)
    ensures SafeGetNodeInfo(Attempts(exchanges)) == DiscoveryRun(Some(Null), 1, 0)
  {
    assert GetNodeinfo(exchanges[0]) == Returned(Some(Null));
  }
}

=== FILE: evaluator.dfy ===
/** The per-instance task of `getInstancesInfos`: discovery, version
    resolution, the vulnerability gate, metadata, score and display fields. */
module Evaluator {
  import opened Wrappers
  import opened Js
  import opened Fetch
  import opened Discovery
  import opened Registry
  import opened Resolver
  import opened Instances

  const BaseValue := 100000
  const RankOffset := 30
  const RankStep := 7200

  /** Languages assumed when an instance configures none. */
  const DefaultLangs: seq<string> := ["ja", "en", "de", "fr", "zh", "ko", "ru", "th", "es"]

  function DefaultLangsJson(): (r: Json)
    ensures r.Arr? && |r.items| == |DefaultLangs|
    ensures forall i :: 0 <= i < |DefaultLangs| ==> r.items[i] == Str(DefaultLangs[i])
  {
    Arr(seq(|DefaultLangs|, i requires 0 <= i < |DefaultLangs| => Str(DefaultLangs[i])))
  }

  /** An instance's value: a number, or NaN when the note chart holds
      non-numeric increments. */
  datatype Score = Finite(v: real) | NotANumber

  /** The record pushed to `alives`. */
  datatype AliveRecord = AliveRecord(
    instance: Instance, value: Score, meta: Json, nodeinfo: Json, stats: Json,
    name: Json, description: Json, langs: Json, repo: string)

  /** How one task ends: a record pushed to exactly one of `alives`,
      `deads`, `outdated`, or an exception that escapes the task. */
  datatype Outcome =
    | Alive(record: AliveRecord)
    | Dead(instance: Instance)
    | Outdated(instance: Instance, nodeinfo: Json)
    | Escaped(instance: Instance)

  function InstanceOf(o: Outcome): Instance {
    match o
    case Alive(rec) => rec.instance
    case Dead(i) => i
    case Outdated(i, _) => i
    case Escaped(i) => i
  }

  /** `nodeinfo.software.version`, when it can be read and cleaned: a
      missing `software` throws on the property read, and the cleaning
      function throws on a non-string. None means the task throws. */
  function ReportedVersion(nodeinfo: Json): (r: Option<string>)
    requires Truthy(nodeinfo)
    ensures r.Some? ==>
      && nodeinfo.Obj? && "software" in nodeinfo.fields
      && nodeinfo.fields["software"].Obj? && "version" in nodeinfo.fields["software"].fields
      && nodeinfo.fields["software"].fields["version"] == Str(r.value)
    ensures (&& nodeinfo.Obj? && "software" in nodeinfo.fields
             && nodeinfo.fields["software"].Obj? && "version" in nodeinfo.fields["software"].fields
             && nodeinfo.fields["software"].fields["version"].Str?) ==>
      r == Some(nodeinfo.fields["software"].fields["version"].s)
  {
    var software := Get(Some(nodeinfo), "software");
    if Nullish(software) then None
    else
      match Get(software, "version")
      case Some(Str(s)) => Some(s)
      case _ => None
  }

  /** The version names a registry release flagged vulnerable, by exact
      key: the only way an instance is reported outdated. */
  predicate ExactVulnerable(lib: Semver, reg: Registry, version: string) {
    var hit := Lookup(reg, lib.clean(version));
    hit.Some? && hit.value.vulnerable
  }

  /** The vulnerability gate (an exact resolution flagged vulnerable)
      holds exactly for an exact vulnerable hit; a prefix or default
      resolution never trips it. */
  lemma GateIsExactVulnerable(lib: Semver, reg: Registry, version: string)
    requires UniqueKeys(reg)
    ensures var res := Resolve(lib, reg, version);
      res.just && res.vulnerable <==> ExactVulnerable(lib, reg, version)
  {
  }

  /** The meta record without its emoji and announcement lists. */
  function Strip(meta: Json): (r: Json)
    ensures r.Obj? <==> meta.Obj?
    ensures r.Obj? ==> "emojis" !in r.fields && "announcements" !in r.fields
    ensures r.Obj? ==> forall k :: k in r.fields <==> k in meta.fields && k != "emojis" && k != "announcements"
    ensures r.Obj? ==> forall k :: k in r.fields ==> r.fields[k] == meta.fields[k]
    ensures !r.Obj? ==> r == meta
  {
    match meta
    case Obj(fields) => Obj(fields - {"emojis", "announcements"})
    case _ => meta
  }

  /** The local daily note increments of the chart, when they form an array. */
  function Increments(chart: Json): (r: Option<seq<Json>>)
    requires !Nullish(Some(chart))
  {
    var local := Get(Some(chart), "local");
    if Nullish(local) then None
    else
      match Get(local, "inc")
      case Some(Arr(items)) => Some(items)
      case _ => None
  }

  /** The increments that are not the number 0, in order. */
  function NonZero(xs: seq<Json>): (r: seq<Json>)
    ensures |r| <= |xs|
    ensures forall x :: x in r <==> x in xs && x != Num(0.0)
  {
    if |xs| == 0 then []
    else (if xs[0] != Num(0.0) then [xs[0]] else []) + NonZero(xs[1..])
  }

  /** The filter keeps every non-zero increment as often as it occurs, and
      in order: it commutes with concatenation and drops exactly the zeros
      of a single element. */
  lemma {:induction false} NonZeroKeepsCounts(xs: seq<Json>)
    ensures Num(0.0) !in multiset(NonZero(xs))
    ensures forall x :: x != Num(0.0) ==> multiset(NonZero(xs))[x] == multiset(xs)[x]
    decreases |xs|
  {
    if |xs| > 0 {
      NonZeroKeepsCounts(xs[1..]);
      assert xs == [xs[0]] + xs[1..];
    }
  }

  lemma {:induction false} NonZeroAppend(a: seq<Json>, b: seq<Json>)
    ensures NonZero(a + b) == NonZero(a) + NonZero(b)
    decreases |a|
  {
    if |a| > 0 {
      assert (a + b)[1..] == a[1..] + b;
      NonZeroAppend(a[1..], b);
    } else {
      assert a + b == b;
    }
  }

  predicate AllNumbers(xs: seq<Json>) {
    forall i :: 0 <= i < |xs| ==> xs[i].Num?
  }

  /** The sum of a list of numbers. */
  function Sum(xs: seq<Json>): real
    requires AllNumbers(xs)
  {
    if |xs| == 0 then 0.0 else xs[0].n + Sum(xs[1..])
  }

  /** A sum of numbers between `lo` and `hi` lies between `|xs| * lo` and
      `|xs| * hi`. */
  lemma {:induction false} SumBounds(xs: seq<Json>, lo: real, hi: real)
    requires AllNumbers(xs)
    requires forall i :: 0 <= i < |xs| ==> lo <= xs[i].n <= hi
    ensures |xs| as real * lo <= Sum(xs) <= |xs| as real * hi
  {
    if |xs| > 0 {
      SumBounds(xs[1..], lo, hi);
    }
  }

  /** The part of the value that comes from the release rank. */
  function Base(count: int): int {
    BaseValue - (count - RankOffset) * RankStep
  }

  /** The instance value: the rank part plus, when the chart's increments
      are an array with non-zero entries, their arithmetic mean. */
  function Value(count: int, chart: Json): (r: Score)
    requires !Nullish(Some(chart))
    ensures Increments(chart).None? ==> r == Finite(Base(count) as real)
    ensures Increments(chart).Some? && NonZero(Increments(chart).value) == [] ==> r == Finite(Base(count) as real)
    ensures Increments(chart).Some? && NonZero(Increments(chart).value) != [] &&
            AllNumbers(NonZero(Increments(chart).value)) ==>
      var nz := NonZero(Increments(chart).value);
      r == Finite(Base(count) as real + Sum(nz) / |nz| as real)
    ensures r.NotANumber? ==> Increments(chart).Some? && !AllNumbers(NonZero(Increments(chart).value))
    ensures Increments(chart).Some? && NonZero(Increments(chart).value) != [] &&
            !AllNumbers(NonZero(Increments(chart).value)) ==>
      r.NotANumber?
  {
    var base := Base(count) as real;
    match Increments(chart)
    case None => Finite(base)
    case Some(items) =>
      var nz := NonZero(items);
      if |nz| == 0 then Finite(base)
      else if AllNumbers(nz) then Finite(base + Sum(nz) / |nz| as real)
      else NotANumber
  }

  /** The trend never lies outside the range of the non-zero daily
      increments: a chart whose non-zero increments lie in [lo, hi] moves
      the value by at least lo and at most hi. */
  lemma TrendWithinDailyRange(count: int, chart: Json, lo: real, hi: real)
    requires !Nullish(Some(chart))
    requires Increments(chart).Some?
    requires NonZero(Increments(chart).value) != []
    requires AllNumbers(NonZero(Increments(chart).value))
    requires forall i :: 0 <= i < |NonZero(Increments(chart).value)| ==>
      lo <= NonZero(Increments(chart).value)[i].n <= hi
    ensures Value(count, chart).Finite?
    ensures Base(count) as real + lo <= Value(count, chart).v <= Base(count) as real + hi
  {
    var nz := NonZero(Increments(chart).value);
    var n := |nz| as real;
    SumBounds(nz, lo, hi);
    MeanBounds(Sum(nz), n, lo, hi);
    var b := Base(count) as real;
    assert Value(count, chart) == Finite(b + Sum(nz) / n);
  }

  /** A total between `n * lo` and `n * hi` has its mean between `lo` and `hi`. */
  lemma MeanBounds(total: real, n: real, lo: real, hi: real)
    requires n > 0.0
    requires n * lo <= total <= n * hi
    ensures lo <= total / n <= hi
  {
    assert total / n - lo == (total - n * lo) / n;
    assert hi - total / n == (n * hi - total) / n;
  }

  /** The display name: configured name, else the node name, else the
      meta name, else the url. */
  function DisplayName(instance: Instance, metadata: JsValue, meta: Json): (r: Json)
    requires !Nullish(metadata) && Truthy(meta)
    ensures FirstTruthy([instance.name, Get(metadata, "nodeName"), Get(Some(meta), "name")], Str(instance.url), r)
  {
    OrChain([instance.name, Get(metadata, "nodeName"), Get(Some(meta), "name")], Str(instance.url))
  }

  /** The description: node description, else meta description, else the
      configured one, else null. The configured value comes last. */
  function Description(instance: Instance, metadata: JsValue, meta: Json): (r: Json)
    requires !Nullish(metadata) && Truthy(meta)
    ensures FirstTruthy([Get(metadata, "nodeDescription"), Get(Some(meta), "description"), instance.description], Null, r)
  {
    OrChain([Get(metadata, "nodeDescription"), Get(Some(meta), "description"), instance.description], Null)
  }

  /** The languages: the configured ones, else the default list. */
  function Langs(instance: Instance): (r: Json)
    ensures TruthyValue(instance.langs) ==> r == instance.langs.value
    ensures !TruthyValue(instance.langs) ==> r == DefaultLangsJson()
  {
    Or(instance.langs, DefaultLangsJson())
  }

  /** The document has a readable version that is not an exact vulnerable
      hit: the task gets past the gate. */
  predicate PastGate(lib: Semver, reg: Registry, nodeinfo: Json) {
    && Truthy(nodeinfo)
    && ReportedVersion(nodeinfo).Some?
    && !ExactVulnerable(lib, reg, ReportedVersion(nodeinfo).value)
  }

  /** All three metadata resources were fetched. */
  predicate AllFetched(meta: Json, stats: Json, chart: Json) {
    Truthy(meta) && Truthy(stats) && Truthy(chart)
  }

  /** The document's `metadata` is present and not null, so its fields can
      be read. */
  predicate HasMetadata(nodeinfo: Json) {
    nodeinfo.Obj? && "metadata" in nodeinfo.fields && nodeinfo.fields["metadata"] != Null
  }

  /** How the task ends for a discovered document and the three fetched
      resources, one condition per outcome:
      - dead: no document, or past the gate with a resource missing;
      - outdated: an exact hit of a vulnerable release;
      - alive: past the gate, every resource fetched, metadata readable;
      - escaped: an unreadable version, or unreadable metadata once
        everything else succeeded. */
  predicate Classifies(lib: Semver, reg: Registry, nodeinfo: Json, meta: Json, stats: Json, chart: Json,
                       o: Outcome) {
    && (o.Dead? <==> !Truthy(nodeinfo) || (PastGate(lib, reg, nodeinfo) && !AllFetched(meta, stats, chart)))
    && (o.Outdated? <==>
          Truthy(nodeinfo) && ReportedVersion(nodeinfo).Some? && ExactVulnerable(lib, reg, ReportedVersion(nodeinfo).value))
    && (o.Alive? <==> PastGate(lib, reg, nodeinfo) && AllFetched(meta, stats, chart) && HasMetadata(nodeinfo))
    && (o.Escaped? <==>
          || (Truthy(nodeinfo) && ReportedVersion(nodeinfo).None?)
          || (PastGate(lib, reg, nodeinfo) && AllFetched(meta, stats, chart) && !HasMetadata(nodeinfo)))
  }

  /** The task body after discovery, given the discovered NodeInfo (null
      when discovery gave nothing truthy) and what the three metadata
      fetches resolved to. */
  function Classify(lib: Semver, reg: Registry, instance: Instance, nodeinfo: Json,
                    meta: Json, stats: Json, chart: Json): (o: Outcome)
    requires UniqueKeys(reg)
    ensures InstanceOf(o) == instance
    // no NodeInfo: dead
    ensures !Truthy(nodeinfo) ==> o == Dead(instance)
    // each outcome exactly under its condition
    ensures Classifies(lib, reg, nodeinfo, meta, stats, chart, o)
    ensures o.Outdated? ==> o.nodeinfo == nodeinfo
    // alive records carry everything gathered
    ensures o.Alive? ==>
      && Truthy(nodeinfo) && Truthy(meta) && Truthy(stats) && Truthy(chart)
      && ReportedVersion(nodeinfo).Some?
      && !ExactVulnerable(lib, reg, ReportedVersion(nodeinfo).value)
      && nodeinfo.Obj? && "metadata" in nodeinfo.fields && nodeinfo.fields["metadata"] != Null
    ensures o.Alive? ==>
      var res := Resolve(lib, reg, ReportedVersion(nodeinfo).value);
      var metadata := Some(nodeinfo.fields["metadata"]);
      && o.record.value == Value(res.count, chart)
      && o.record.repo == res.repo
      && o.record.meta == Strip(meta)
      && o.record.nodeinfo == nodeinfo && o.record.stats == stats
      && FirstTruthy([instance.name, Get(metadata, "nodeName"), Get(Some(meta), "name")], Str(instance.url), o.record.name)
      && FirstTruthy([Get(metadata, "nodeDescription"), Get(Some(meta), "description"), instance.description], Null,
                     o.record.description)
      && o.record.langs == Langs(instance)
  {
    if !Truthy(nodeinfo) then Dead(instance)
    else
      match ReportedVersion(nodeinfo)
      case None => Escaped(instance)
      case Some(version) =>
        var res := Resolve(lib, reg, version);
        GateIsExactVulnerable(lib, reg, version);
        if res.just && res.vulnerable then Outdated(instance, nodeinfo)
        else if !(Truthy(meta) && Truthy(stats) && Truthy(chart)) then Dead(instance)
        else
          var metadata := Get(Some(nodeinfo), "metadata");
          if Nullish(metadata) then Escaped(instance)
          else
            Alive(AliveRecord(
              instance, Value(res.count, chart), Strip(meta), nodeinfo, stats,
              DisplayName(instance, metadata, meta), Description(instance, metadata, meta),
              Langs(instance), res.repo))
  }

  /** What the network yields to one instance's task: the exchanges of
      the `getNodeinfo` calls and the responses to the requests for
      `/api/meta`, `/api/stats` and `/api/charts/notes`. */
  datatype Traffic = Traffic(
    discovery: seq<Exchange>, meta: seq<Transport>, stats: seq<Transport>, chart: seq<Transport>)

  /** Enough responses for every request the task can make. */
  predicate Sufficient(t: Traffic) {
    |t.discovery| >= 3 && |t.meta| >= MaxAttempts && |t.stats| >= MaxAttempts && |t.chart| >= MaxAttempts
  }

  /** The task once discovery has resolved to `discovered`: `|| null`,
      then the gate and the three metadata fetches. */
  function AfterDiscovery(lib: Semver, reg: Registry, instance: Instance, discovered: JsValue, t: Traffic)
    : (o: Outcome)
    requires UniqueKeys(reg)
    requires Sufficient(t)
    ensures InstanceOf(o) == instance
    ensures !TruthyValue(discovered) ==> o == Dead(instance)
    ensures Classifies(lib, reg, OrNull(discovered),
                       FetchJson(t.meta).result, FetchJson(t.stats).result, FetchJson(t.chart).result, o)
    ensures o.Alive? ==>
      && Truthy(FetchJson(t.meta).result) && Truthy(FetchJson(t.stats).result) && Truthy(FetchJson(t.chart).result)
      && o.record.nodeinfo == discovered.value
      && o.record.stats == FetchJson(t.stats).result
    ensures o.Outdated? ==> o.nodeinfo == discovered.value
  {
    Classify(lib, reg, instance, OrNull(discovered),
      OrNull(Some(FetchJson(t.meta).result)),
      OrNull(Some(FetchJson(t.stats).result)),
      OrNull(Some(FetchJson(t.chart).result)))
  }

  /** One task of the scheduler, from discovery to the pushed record, with
      the intended discovery chain (at most one retry). */
  function Evaluate(lib: Semver, reg: Registry, instance: Instance, t: Traffic): (o: Outcome)
    requires UniqueKeys(reg)
    requires Sufficient(t)
    ensures InstanceOf(o) == instance
    ensures !TruthyValue(SafeGetNodeInfo(Attempts(t.discovery)).value) ==> o == Dead(instance)
    ensures Classifies(lib, reg, OrNull(SafeGetNodeInfo(Attempts(t.discovery)).value),
                       FetchJson(t.meta).result, FetchJson(t.stats).result, FetchJson(t.chart).result, o)
    ensures o.Alive? ==>
      && Truthy(FetchJson(t.meta).result) && Truthy(FetchJson(t.stats).result) && Truthy(FetchJson(t.chart).result)
      && o.record.nodeinfo == SafeGetNodeInfo(Attempts(t.discovery)).value.value
      && o.record.stats == FetchJson(t.stats).result
    ensures o.Outdated? ==> o.nodeinfo == SafeGetNodeInfo(Attempts(t.discovery)).value.value
  {
    AfterDiscovery(lib, reg, instance, SafeGetNodeInfo(Attempts(t.discovery)).value, t)
  }

  /** The same task with the discovery chain as the code writes it, which
      can make a third `getNodeinfo` call. */
  function EvaluateAsWritten(lib: Semver, reg: Registry, instance: Instance, t: Traffic): (o: Outcome)
    requires UniqueKeys(reg)
    requires Sufficient(t)
    ensures InstanceOf(o) == instance
    ensures !TruthyValue(SafeGetNodeInfoAsWritten(Attempts(t.discovery)).value) ==> o == Dead(instance)
    ensures Classifies(lib, reg, OrNull(SafeGetNodeInfoAsWritten(Attempts(t.discovery)).value),
                       FetchJson(t.meta).result, FetchJson(t.stats).result, FetchJson(t.chart).result, o)
    ensures o.Alive? ==>
      && AllFetched(FetchJson(t.meta).result, FetchJson(t.stats).result, FetchJson(t.chart).result)
      && o.record.stats == FetchJson(t.stats).result
    ensures o.Alive? ==> o.record.nodeinfo == SafeGetNodeInfoAsWritten(Attempts(t.discovery)).value.value
    ensures o.Outdated? ==> o.nodeinfo == SafeGetNodeInfoAsWritten(Attempts(t.discovery)).value.value
  {
    AfterDiscovery(lib, reg, instance, SafeGetNodeInfoAsWritten(Attempts(t.discovery)).value, t)
  }

  /** The two tasks give the same outcome unless the first `getNodeinfo`
      call resolves to `undefined` and the second rejects. */
  lemma EvaluateAgreesWithWrittenChain(lib: Semver, reg: Registry, instance: Instance, t: Traffic)
    requires UniqueKeys(reg)
    requires Sufficient(t)
    requires !(Attempts(t.discovery)[0] == Returned(None) && Attempts(t.discovery)[1] == Threw)
    ensures Evaluate(lib, reg, instance, t) == EvaluateAsWritten(lib, reg, instance, t)
  {
    AsWrittenAgreesElsewhere(Attempts(t.discovery));
  }

  /** On that input the written chain reaches a third call, and a NodeInfo
      document found there lets the task go on to the gate, while the
      intended chain reports the instance dead. */
  lemma ThirdCallRevivesTask(lib: Semver, reg: Registry, instance: Instance, t: Traffic, doc: Json)
    requires UniqueKeys(reg)
    requires Sufficient(t)
    requires Truthy(doc)
    requires Attempts(t.discovery)[..3] == [Returned(None), Threw, Returned(Some(doc))]
    ensures Evaluate(lib, reg, instance, t) == Dead(instance)
    ensures EvaluateAsWritten(lib, reg, instance, t) == Classify(lib, reg, instance, doc,
      OrNull(Some(FetchJson(t.meta).result)), OrNull(Some(FetchJson(t.stats).result)),
      OrNull(Some(FetchJson(t.chart).result)))
  {
    var a := Attempts(t.discovery);
    assert a[0] == Returned(None) && a[1] == Threw && a[2] == Returned(Some(doc)) by {
      assert a[..3][0] == a[0] && a[..3][1] == a[1] && a[..3][2] == a[2];
    }
  }

  /** A metadata endpoint that answers 404 makes an instance dead even
      when its NodeInfo was found, unless the gate already classified it
      outdated or the document was unreadable. */
  lemma MissingMetaIsDead(lib: Semver, reg: Registry, instance: Instance, t: Traffic, body: Body)
    requires UniqueKeys(reg)
    requires Sufficient(t)
    requires t.meta[0] == Response(404, body)
    ensures var o := Evaluate(lib, reg, instance, t);
      o.Dead? || o.Outdated? || o.Escaped?
  {
    assert FetchJson(t.meta).result == Bool(false);
  }

  /** With a registry that `getVersions` built, no version is an exact
      vulnerable hit: the builder never records a vulnerable release. */
  lemma BuiltRegistryNeverVulnerable(lib: Semver, sources: seq<TagSource>, version: string)
    ensures UniqueKeys(BuildRegistry(lib, sources))
    ensures !ExactVulnerable(lib, BuildRegistry(lib, sources), version)
  {
    var reg := BuildRegistry(lib, sources);
    BuildRegistryProperties(lib, sources);
    var hit := Lookup(reg, lib.clean(version));
    if hit.Some? {
      var i :| 0 <= i < |reg| && reg[i] == Entry(lib.clean(version), hit.value);
      assert reg[i] in reg;
    }
  }

  /** Hence, with such a registry, no instance is ever reported outdated. */
  lemma BuiltRegistryNeverOutdated(lib: Semver, sources: seq<TagSource>, instance: Instance,
                                   nodeinfo: Json, meta: Json, stats: Json, chart: Json)
    ensures UniqueKeys(BuildRegistry(lib, sources))
    ensures !Classify(lib, BuildRegistry(lib, sources), instance, nodeinfo, meta, stats, chart).Outdated?
  {
    var reg := BuildRegistry(lib, sources);
    BuildRegistryProperties(lib, sources);
    var o := Classify(lib, reg, instance, nodeinfo, meta, stats, chart);
    if Truthy(nodeinfo) && ReportedVersion(nodeinfo).Some? {
      BuiltRegistryNeverVulnerable(lib, sources, ReportedVersion(nodeinfo).value);
    }
  }

  function ExampleSemver(): Semver {
    Semver(s => Some(s), s => Some(s), v => false)
  }

  function ExampleRegistry(): Registry {
    [Entry(Some("13.0.0"), Release(MisskeyRepo, 0, false)),
     Entry(Some("12.0.0"), Release(MisskeyRepo, 5, true))]
  }

  function ExampleChart(): Json {
    Obj(map["local" := Obj(map["inc" := Arr([Num(5.0), Num(0.0), Num(0.0), Num(10.0), Num(0.0)])])])
  }

  /** Version "13.0.1" against a registry holding "13.0.0" (rank 0) and
      "12.0.0" (rank 5, vulnerable): no key is a prefix of "13.0.1", so the
      default applies. */
  lemma ExampleResolvesToDefault()
    ensures UniqueKeys(ExampleRegistry())
    ensures Resolve(ExampleSemver(), ExampleRegistry(), "13.0.1") == Default
  {
    var lib := ExampleSemver();
    var reg := ExampleRegistry();
    var v := "13.0.1";
    assert lib.clean(v) == Some(v);
    assert lib.coerceValid(v) == Some(v);
    assert Keys(reg) == [Some("13.0.0"), Some("12.0.0")];
    assert Lookup(reg, Some(v)) == None;
    assert !Strings.StartsWith(v, "13.0.0") by { assert v[5] != "13.0.0"[5]; }
    assert !Strings.StartsWith(v, "12.0.0") by { assert v[1] != "12.0.0"[1]; }
    assert !Matches(Some(v), Some(v), reg[0]);
    assert !Matches(Some(v), Some(v), reg[1]);
  }

  /** The chart's non-zero increments 5 and 10 add their mean 7.5. */
  lemma ExampleValue()
    ensures Value(DefaultCount, ExampleChart()) == Finite(-10484000.0 + 7.5)
  {
    var items := [Num(5.0), Num(0.0), Num(0.0), Num(10.0), Num(0.0)];
    assert Increments(ExampleChart()) == Some(items);
    assert NonZero(items[4..]) == [];
    assert NonZero(items[3..]) == [Num(10.0)];
    assert NonZero(items[1..]) == [Num(10.0)];
    assert NonZero(items) == [Num(5.0), Num(10.0)];
    assert Sum([Num(5.0), Num(10.0)]) == 15.0;
  }

  function ExampleNodeinfo(): Json {
    Obj(map["software" := Obj(map["version" := Str("13.0.1")]), "metadata" := Obj(map[])])
  }

  /** An instance reporting 13.0.1 against that registry is alive, not
      outdated, with value 100000 - (1500 - 30) * 7200 + 7.5. */
  lemma ExampleInstanceIsAlive()
    ensures UniqueKeys(ExampleRegistry())
    ensures var o := Classify(ExampleSemver(), ExampleRegistry(), Instance("example.org", None, None, None),
                              ExampleNodeinfo(), Obj(map[]), Obj(map[]), ExampleChart());
      o.Alive? && o.record.value == Finite(-10484000.0 + 7.5)
  {
    ExampleResolvesToDefault();
    ExampleValue();
    ExampleNodeinfoFields();
    GateIsExactVulnerable(ExampleSemver(), ExampleRegistry(), "13.0.1");
  }

  lemma ExampleNodeinfoFields()
    ensures Truthy(ExampleNodeinfo())
    ensures ReportedVersion(ExampleNodeinfo()) == Some("13.0.1")
    ensures Get(Some(ExampleNodeinfo()), "metadata") == Some(Obj(map[]))
  {
    assert Get(Some(ExampleNodeinfo()), "software") == Some(Obj(map["version" := Str("13.0.1")]));
  }
}

=== FILE: fetch.dfy ===
/** The resilient fetch client: `safeFetch` classifies one HTTP call and
    `fetchJson` adds a bounded retry on top of it. The network is replaced
    by `Transport` values, one per attempt. */
module Fetch {
  import opened Wrappers
  import opened Js
  import Strings

  /** Attempts `fetchJson` makes at most: the loop runs while fewer than two
      retries have been counted. */
  const MaxAttempts: nat := 2
  /** Delay before every attempt but the first, in milliseconds. */
  const RetryDelayMs: nat := 20000

  /** What reading a response body as JSON yields: the parsed value, or the
      error the read rejected with (bad JSON, or an abort while reading). */
  datatype Body = Parsed(json: Json) | BodyError(errno: Option<string>, errType: string)

  /** What one HTTP call yields: a response with its status and body, or a
      transport error carrying node-fetch's `errno` and `type`. */
  datatype Transport =
    | Response(status: int, body: Body)
    | Failure(errno: Option<string>, errType: string)

  /** node-fetch's `res.ok` */
  predicate IsOk(status: int) {
    200 <= status < 300
  }

  predicate IsServerError(status: int) {
    500 <= status < 600
  }

  /** A transport error counts as a timeout when its lower-cased errno
      contains "timeout", or as an abort when its type is "aborted". */
  predicate IsTimeoutOrAbort(errno: Option<string>, errType: string) {
    || (errno.Some? && Strings.Includes(Strings.ToLower(errno.value), "timeout"))
    || errType == "aborted"
  }

  /** The four values `safeFetch` can resolve to. */
  datatype SafeResult =
    | Resp(status: int, body: Body)   // the response object
    | RetryableNull                   // null
    | FatalFalse                      // false
    | NoResult                        // undefined

  /** One `safeFetch` call. */
  function SafeFetch(t: Transport): (r: SafeResult)
    ensures r.Resp? <==> t.Response? && IsOk(t.status)
    ensures r.Resp? ==> r.status == t.status && r.body == t.body
    ensures r.RetryableNull? <==>
      || (t.Response? && IsServerError(t.status))
      || (t.Failure? && IsTimeoutOrAbort(t.errno, t.errType))
    ensures r.FatalFalse? <==> t.Failure? && !IsTimeoutOrAbort(t.errno, t.errType)
    ensures r.NoResult? <==> t.Response? && !IsOk(t.status) && !IsServerError(t.status)
  {
    match t
    case Response(status, body) =>
      if IsOk(status) then Resp(status, body)
      else if IsServerError(status) then RetryableNull
      else NoResult
    case Failure(errno, errType) =>
      if IsTimeoutOrAbort(errno, errType) then RetryableNull else FatalFalse
  }

  /** How one pass of the `fetchJson` loop ends: it returns a value (the
      value `false` being the failure result), or it goes round again. */
  datatype Step = Settled(value: Json) | Retry

  /** One pass of the `fetchJson` loop body. A JSON `null` body is
      indistinguishable from `safeFetch`'s null, so it is retried too; a
      body that fails to parse is caught and becomes `false`. */
  function JsonAttempt(t: Transport): (s: Step)
    ensures s.Retry? <==>
      || SafeFetch(t).RetryableNull?
      || (t.Response? && IsOk(t.status) && t.body == Parsed(Null))
    ensures t.Response? && IsOk(t.status) && t.body.Parsed? && t.body.json != Null ==>
      s == Settled(t.body.json)
    ensures s.Settled? && s.value != Bool(false) ==>
      t.Response? && IsOk(t.status) && t.body == Parsed(s.value)
    ensures !(t.Response? && IsOk(t.status)) && !SafeFetch(t).RetryableNull? ==>
      s == Settled(Bool(false))
    // an OK body that fails to parse is caught and becomes `false`
    ensures t.Response? && IsOk(t.status) && t.body.BodyError? ==> s == Settled(Bool(false))
  {
    match SafeFetch(t)
    case RetryableNull => Retry
    case FatalFalse => Settled(Bool(false))
    case NoResult => Settled(Bool(false))
    case Resp(_, body) =>
      match body
      case BodyError(_, _) => Settled(Bool(false))
      case Parsed(j) => if j == Null then Retry else Settled(j)
  }

  /** The outcome of a whole `fetchJson` call: the value it resolves to,
      how many requests it made and how long it slept between them. */
  datatype FetchRun = FetchRun(result: Json, attempts: nat, waitedMs: nat)

  /** The `fetchJson` loop from `retryCount` on; `responses[k]` is what
      the `k`-th request yields. */
  function FetchJsonFrom(responses: seq<Transport>, retryCount: nat): (r: FetchRun)
    requires retryCount <= MaxAttempts <= |responses|
    ensures retryCount < MaxAttempts ==> retryCount < r.attempts <= MaxAttempts
    ensures retryCount == MaxAttempts ==> r == FetchRun(Bool(false), retryCount, 0)
    ensures r.waitedMs == RetryDelayMs * (r.attempts - (if retryCount == 0 then 1 else retryCount))
    ensures r.attempts < MaxAttempts ==> r.result != Null
    decreases MaxAttempts - retryCount
  {
    if retryCount >= MaxAttempts then FetchRun(Bool(false), retryCount, 0)
    else
      var wait := if retryCount > 0 then RetryDelayMs else 0;
      match JsonAttempt(responses[retryCount])
      case Settled(v) => FetchRun(v, retryCount + 1, wait)
      case Retry =>
        var rest := FetchJsonFrom(responses, retryCount + 1);
        rest.(waitedMs := wait + rest.waitedMs)
  }

  /** `fetchJson(method, url, body)`, given what each request would yield. */
  function FetchJson(responses: seq<Transport>): (r: FetchRun)
    requires MaxAttempts <= |responses|
    ensures 1 <= r.attempts <= MaxAttempts
    ensures r.waitedMs == RetryDelayMs * (r.attempts - 1)
    // an OK response with a non-null JSON body is the result, at once
    ensures responses[0].Response? && IsOk(responses[0].status) &&
            responses[0].body.Parsed? && responses[0].body.json != Null ==>
      r == FetchRun(responses[0].body.json, 1, 0)
    // a first pass that settles is the result, at once: in particular an
    // OK response whose body fails to parse gives `false`
    ensures JsonAttempt(responses[0]).Settled? ==> r == FetchRun(JsonAttempt(responses[0]).value, 1, 0)
    ensures responses[0].Response? && IsOk(responses[0].status) && responses[0].body.BodyError? ==>
      r == FetchRun(Bool(false), 1, 0)
    // only a retryable first outcome leads to a second request
    ensures r.attempts == 2 <==> JsonAttempt(responses[0]).Retry?
    // any other failure is `false` at once
    ensures SafeFetch(responses[0]).FatalFalse? || SafeFetch(responses[0]).NoResult? ==>
      r == FetchRun(Bool(false), 1, 0)
    // two retryable outcomes in a row give up with `false`
    ensures JsonAttempt(responses[0]).Retry? && JsonAttempt(responses[1]).Retry? ==>
      r.result == Bool(false)
    ensures JsonAttempt(responses[0]).Retry? && JsonAttempt(responses[1]).Settled? ==>
      r.result == JsonAttempt(responses[1]).value
  {
    FetchJsonFrom(responses, 0)
  }

  /** A server that answers every request with 503 is asked twice, twenty
      seconds apart, and the call then resolves to `false`. */
  lemma PersistentServerErrorGivesUp(responses: seq<Transport>)
    requires MaxAttempts <= |responses|
    requires forall k :: 0 <= k < |responses| ==> responses[k].Response? && responses[k].status == 503
    ensures FetchJson(responses) == FetchRun(Bool(false), 2, RetryDelayMs)
  {
    assert JsonAttempt(responses[0]).Retry?;
    assert JsonAttempt(responses[1]).Retry?;
  }

  /** node-fetch reports a connect timeout with errno "ETIMEDOUT", which in
      lower case does not contain "timeout": such an error is fatal and is
      not retried; only an abort (the 30-second controller) is. */
  lemma ConnectTimeoutIsFatal()
    ensures SafeFetch(Failure(Some("ETIMEDOUT"), "system")) == FatalFalse
    ensures SafeFetch(Failure(None, "aborted")) == RetryableNull
  {
    LowerCaseErrno();
    NoTimeoutInErrno();
  }

  lemma LowerCaseErrno()
    ensures Strings.ToLower("ETIMEDOUT") == "etimedout"
  {
    var r := Strings.ToLower("ETIMEDOUT");
    assert |r| == 9;
    forall i | 0 <= i < 9
      ensures r[i] == "etimedout"[i]
    {
      assert r[i] == Strings.LowerChar("ETIMEDOUT"[i]);
    }
  }

  /** "timeout" occurs at none of the positions of "etimedout". */
  lemma NoTimeoutInErrno()
    ensures !Strings.Includes("etimedout", "timeout")
  {
    var s := "etimedout";
    assert !Strings.StartsWith(s, "timeout") by { assert s[0] != 't'; }
    assert !Strings.StartsWith(s[1..], "timeout") by { assert s[1..][4] == 'd'; }
    assert !Strings.StartsWith(s[2..], "timeout") by { assert s[2..][0] == 'i'; }
    Strings.IncludesNeedsRoom(s[3..], "timeout");
    assert !Strings.Includes(s[2..], "timeout");
    assert !Strings.Includes(s[1..], "timeout");
  }
}

=== FILE: insertion_order.dfy ===
/** Insertion-ordered collections without duplicates, the way a JavaScript
    `Set` (and the key list of a `Map`) behaves: adding an element that is
    already present changes nothing, and iteration follows first insertion. */
module InsertionOrder {

  predicate NoDuplicates<T(==)>(s: seq<T>) {
    forall i, j :: 0 <= i < j < |s| ==> s[i] != s[j]
  }

  /** Adding `x` to an insertion-ordered set. */
  function AddUnique<T(==)>(acc: seq<T>, x: T): (r: seq<T>)
    ensures x in acc ==> r == acc
    ensures x !in acc ==> r == acc + [x]
  {
    if x in acc then acc else acc + [x]
  }

  /** Adding every element of `xs`, left to right. */
  function AddAll<T(==)>(acc: seq<T>, xs: seq<T>): seq<T>
    decreases |xs|
  {
    if |xs| == 0 then acc else AddAll(AddUnique(acc, xs[0]), xs[1..])
  }

  /** A set built from `xs` and read back as a list: first occurrences of `xs`, in order. */
  function Dedup<T(==)>(xs: seq<T>): seq<T> {
    AddAll([], xs)
  }

  /** Adding keeps what is there as a prefix, adds no duplicate and
      gains exactly the elements of `xs`. */
  lemma {:induction false} AddAllProperties<T>(acc: seq<T>, xs: seq<T>)
    requires NoDuplicates(acc)
    ensures NoDuplicates(AddAll(acc, xs))
    ensures acc <= AddAll(acc, xs)
    ensures forall x :: x in AddAll(acc, xs) <==> x in acc || x in xs
    decreases |xs|
  {
    if |xs| > 0 {
      var acc' := AddUnique(acc, xs[0]);
      assert NoDuplicates(acc');
      AddAllProperties(acc', xs[1..]);
      forall x
        ensures x in AddAll(acc, xs) <==> x in acc || x in xs
      {
        assert x in xs <==> x == xs[0] || x in xs[1..] by {
          assert xs == [xs[0]] + xs[1..];
        }
      }
    }
  }

  /** Adding a concatenation is adding one part after the other. */
  lemma {:induction false} AddAllAppend<T>(acc: seq<T>, a: seq<T>, b: seq<T>)
    ensures AddAll(acc, a + b) == AddAll(AddAll(acc, a), b)
    decreases |a|
  {
    if |a| == 0 {
      assert a + b == b;
    } else {
      assert (a + b)[0] == a[0];
      assert (a + b)[1..] == a[1..] + b;
      AddAllAppend(AddUnique(acc, a[0]), a[1..], b);
    }
  }

  /** The de-duplicated sequence holds each element of `xs` exactly once. */
  lemma DedupProperties<T>(xs: seq<T>)
    ensures NoDuplicates(Dedup(xs))
    ensures forall x :: x in Dedup(xs) <==> x in xs
  {
    AddAllProperties([], xs);
  }
}

=== FILE: instanceq.dfy ===
/** The instance-list maintenance script: two consistency reports over the
    configured list (`duplicated`, `invalid`) and the directory crawl that
    collects Calckey hosts the list does not carry yet. */
module InstanceQ {
  import opened Wrappers
  import opened Js
  import opened Instances
  import opened InsertionOrder

  function Urls(list: seq<Instance>): (r: seq<string>)
    ensures |r| == |list|
    ensures forall i :: 0 <= i < |list| ==> r[i] == list[i].url
  {
    seq(|list|, i requires 0 <= i < |list| => list[i].url)
  }

  /** The first index whose entry has the url `url`, or -1. */
  function FindIndex(arr: seq<Instance>, url: string): (r: int)
    ensures -1 <= r < |arr|
    ensures r == -1 <==> url !in Urls(arr)
    ensures r >= 0 ==> arr[r].url == url && url !in Urls(arr[..r])
    decreases |arr|
  {
    if |arr| == 0 then -1
    else if arr[0].url == url then 0
    else
      var k := FindIndex(arr[1..], url);
      assert Urls(arr) == [arr[0].url] + Urls(arr[1..]);
      if k == -1 then -1
      else
        assert Urls(arr[..k + 1]) == [arr[0].url] + Urls(arr[1..][..k]);
        k + 1
  }

  /** Element `i` is kept by the `duplicated` filter exactly when its url
      occurs earlier in the list. */
  lemma FindIndexIsNotSelf(arr: seq<Instance>, i: int)
    requires 0 <= i < |arr|
    ensures FindIndex(arr, arr[i].url) != i <==> arr[i].url in Urls(arr[..i])
  {
    var k := FindIndex(arr, arr[i].url);
    FindIndexIsFirst(arr, arr[i].url, i);
    if k < i {
      assert Urls(arr[..i])[k] == arr[k].url;
    }
  }

  /** `findIndex` stops no later than any index holding `url`. */
  lemma {:induction false} FindIndexIsFirst(arr: seq<Instance>, url: string, j: int)
    requires 0 <= j < |arr| && arr[j].url == url
    ensures 0 <= FindIndex(arr, url) <= j
    decreases |arr|
  {
    if arr[0].url != url {
      FindIndexIsFirst(arr[1..], url, j - 1);
    }
  }

  /** The duplicate filter applied to the first `n` elements of `arr`. */
  function DuplicatedPrefix(arr: seq<Instance>, n: nat): (r: seq<string>)
    requires n <= |arr|
    decreases n
  {
    if n == 0 then []
    else
      DuplicatedPrefix(arr, n - 1)
        + (if FindIndex(arr, arr[n - 1].url) != n - 1 then [arr[n - 1].url] else [])
  }

  /** `duplicated`: the url of every entry whose url an earlier entry
      already has, in list order. */
  function Duplicated(mylist: seq<Instance>): seq<string> {
    DuplicatedPrefix(mylist, |mylist|)
  }

  /** Reference definition: the repeated occurrences of a sequence, each
      element after its first appearance. */
  function Repeats(s: seq<string>): seq<string>
    decreases |s|
  {
    if |s| == 0 then []
    else
      var init := s[..|s| - 1];
      Repeats(init) + (if s[|s| - 1] in init then [s[|s| - 1]] else [])
  }

  lemma {:induction false} DuplicatedPrefixIsRepeats(arr: seq<Instance>, n: nat)
    requires n <= |arr|
    ensures DuplicatedPrefix(arr, n) == Repeats(Urls(arr[..n]))
    decreases n
  {
    if n > 0 {
      DuplicatedPrefixIsRepeats(arr, n - 1);
      var x := arr[n - 1].url;
      var init := Urls(arr[..n - 1]);
      var dup := FindIndex(arr, x) != n - 1;
      var added := if dup then [x] else [];
      assert DuplicatedPrefix(arr, n) == DuplicatedPrefix(arr, n - 1) + added;
      FindIndexIsNotSelf(arr, n - 1);
      assert dup == (x in init);
      UrlsSnoc(arr, n);
      RepeatsSnoc(init, x);
      assert Repeats(Urls(arr[..n])) == Repeats(init) + added;
    }
  }

  lemma UrlsSnoc(arr: seq<Instance>, n: nat)
    requires 0 < n <= |arr|
    ensures Urls(arr[..n]) == Urls(arr[..n - 1]) + [arr[n - 1].url]
  {
  }

  lemma RepeatsSnoc(init: seq<string>, x: string)
    ensures Repeats(init + [x]) == Repeats(init) + (if x in init then [x] else [])
  {
    assert (init + [x])[..|init|] == init;
  }

  /** `duplicated` lists exactly the repeated occurrences of the urls. */
  lemma DuplicatedIsRepeats(mylist: seq<Instance>)
    ensures Duplicated(mylist) == Repeats(Urls(mylist))
  {
    DuplicatedPrefixIsRepeats(mylist, |mylist|);
    assert mylist[..|mylist|] == mylist;
  }

  /** Every url appears in `Repeats` one time fewer than in the input:
      the repeated occurrences and the distinct urls together are the
      whole list. */
  lemma {:induction false} RepeatsAndDistinct(s: seq<string>)
    ensures multiset(Repeats(s)) + multiset(Dedup(s)) == multiset(s)
    decreases |s|
  {
    if |s| > 0 {
      var init := s[..|s| - 1];
      var x := s[|s| - 1];
      assert s == init + [x];
      RepeatsAndDistinct(init);
      AddAllAppend([], init, [x]);
      AddAllProperties([], init);
      assert AddAll(Dedup(init), [x]) == AddUnique(Dedup(init), x);
    }
  }

  /** A url listed `k > 0` times is reported `k - 1` times; a list without
      repeated urls reports nothing. */
  lemma DuplicatedCounts(mylist: seq<Instance>, url: string)
    ensures url in Urls(mylist) ==>
      multiset(Duplicated(mylist))[url] == multiset(Urls(mylist))[url] - 1
    ensures url !in Urls(mylist) ==> url !in Duplicated(mylist)
  {
    var s := Urls(mylist);
    DuplicatedIsRepeats(mylist);
    RepeatsAndDistinct(s);
    DedupProperties(s);
    if url in s {
      assert url in Dedup(s);
      DistinctCountsOnce(Dedup(s), url);
    } else {
      assert multiset(s)[url] == 0;
      assert multiset(Repeats(s))[url] == 0;
    }
  }

  lemma {:induction false} DistinctCountsOnce(s: seq<string>, x: string)
    requires NoDuplicates(s)
    requires x in s
    ensures multiset(s)[x] == 1
    decreases |s|
  {
    assert s == [s[0]] + s[1..];
    if s[0] == x {
      assert x !in s[1..];
    } else {
      assert NoDuplicates(s[1..]);
      DistinctCountsOnce(s[1..], x);
    }
  }

  /** A `langs` field that is present but not an array. */
  predicate InvalidLangs(langs: JsValue) {
    langs.Some? && !langs.value.Arr?
  }

  /** `invalid`: the urls of entries whose `langs` is present but not a
      list, in list order. */
  function Invalid(mylist: seq<Instance>): (r: seq<string>)
    ensures |r| <= |mylist|
    ensures forall url :: url in r <==>
      exists i :: 0 <= i < |mylist| && mylist[i].url == url && InvalidLangs(mylist[i].langs)
    decreases |mylist|
  {
    if |mylist| == 0 then []
    else
      var rest := Invalid(mylist[1..]);
      assert forall i :: 0 < i < |mylist| ==> mylist[1..][i - 1] == mylist[i];
      (if InvalidLangs(mylist[0].langs) then [mylist[0].url] else []) + rest
  }

  /** The report keeps list order and repetition: it is built entry by
      entry, each entry contributing its url exactly when its `langs` is
      invalid. */
  lemma {:induction false} InvalidAppend(a: seq<Instance>, b: seq<Instance>)
    ensures Invalid(a + b) == Invalid(a) + Invalid(b)
    decreases |a|
  {
    if |a| > 0 {
      assert (a + b)[1..] == a[1..] + b;
      InvalidAppend(a[1..], b);
    } else {
      assert a + b == b;
    }
  }

  lemma InvalidSnoc(mylist: seq<Instance>, e: Instance)
    ensures Invalid([]) == []
    ensures Invalid(mylist + [e]) == Invalid(mylist) + (if InvalidLangs(e.langs) then [e.url] else [])
  {
    InvalidAppend(mylist, [e]);
  }

  /** A list entry with a valid `langs` is never reported. */
  lemma ArrayLangsAreValid(mylist: seq<Instance>, url: string)
    requires forall i :: 0 <= i < |mylist| && mylist[i].url == url ==>
      mylist[i].langs == None || mylist[i].langs.value.Arr?
    ensures url !in Invalid(mylist)
  {
  }

  /** The directory's page size: each request asks for one record more
      than it keeps, to learn whether another page follows. */
  const ApiNum: nat := 60
  const Limit: nat := ApiNum + 1

  /** One record of the federation directory, fields as parsed. */
  datatype DirEntry = DirEntry(host: JsValue, softwareName: JsValue, latestStatus: JsValue, isNotResponding: JsValue)

  /** The directory's answer to `{limit: 61, offset}` over its listing. */
  function PageAt(listing: seq<DirEntry>, offset: nat): (l: seq<DirEntry>)
    ensures |l| <= Limit
    ensures offset + |l| <= |listing| || |l| == 0
    ensures |l| == Limit ==> offset + Limit <= |listing|
  {
    if offset >= |listing| then []
    else if offset + Limit <= |listing| then listing[offset..offset + Limit]
    else listing[offset..]
  }

  /** The condition under which the crawl adds `e.host`. */
  predicate Wanted(e: DirEntry, ignorehosts: seq<string>, mylist: seq<Instance>) {
    && (forall x :: x in ignorehosts ==> e.host != Some(Str(x)))
    && e.softwareName == Some(Str("calckey"))
    && (e.latestStatus == Some(Null) || e.isNotResponding == Some(Bool(false)))
    && (forall i :: 0 <= i < |mylist| ==> e.host != Some(Str(mylist[i].url)))
  }

  /** The hosts of the wanted records, in order. */
  function WantedHosts(l: seq<DirEntry>, ignorehosts: seq<string>, mylist: seq<Instance>): (r: seq<JsValue>)
    ensures forall h :: h in r <==>
      exists i :: 0 <= i < |l| && l[i].host == h && Wanted(l[i], ignorehosts, mylist)
    decreases |l|
  {
    if |l| == 0 then []
    else
      var rest := WantedHosts(l[1..], ignorehosts, mylist);
      assert forall i :: 0 < i < |l| ==> l[1..][i - 1] == l[i];
      if Wanted(l[0], ignorehosts, mylist) then [l[0].host] + rest else rest
  }

  lemma {:induction false} WantedHostsAppend(a: seq<DirEntry>, b: seq<DirEntry>, ignorehosts: seq<string>, mylist: seq<Instance>)
    ensures WantedHosts(a + b, ignorehosts, mylist) == WantedHosts(a, ignorehosts, mylist) + WantedHosts(b, ignorehosts, mylist)
    decreases |a|
  {
    if |a| == 0 {
      assert a + b == b;
    } else {
      var ab := a + b;
      assert ab[0] == a[0];
      assert ab[1..] == a[1..] + b;
      WantedHostsAppend(a[1..], b, ignorehosts, mylist);
      var wb := WantedHosts(b, ignorehosts, mylist);
      if Wanted(a[0], ignorehosts, mylist) {
        calc {
          WantedHosts(ab, ignorehosts, mylist);
          [a[0].host] + WantedHosts(a[1..] + b, ignorehosts, mylist);
          [a[0].host] + (WantedHosts(a[1..], ignorehosts, mylist) + wb);
          ([a[0].host] + WantedHosts(a[1..], ignorehosts, mylist)) + wb;
        }
      }
    }
  }

  /** The crawl's result: the collected hosts as a list and the number of
      directory requests made. */
  datatype CrawlRun = CrawlRun(hosts: seq<JsValue>, requests: nat)

  /** The paging loop from `offset` on, with `acc` the set so far. */
  function Crawl(listing: seq<DirEntry>, ignorehosts: seq<string>, mylist: seq<Instance>,
                 offset: nat, acc: seq<JsValue>): (r: CrawlRun)
    ensures r.requests >= 1
    decreases |listing| - offset
  {
    var l := PageAt(listing, offset);
    var next := |l| == Limit;
    var kept := if next then l[..|l| - 1] else l;
    var acc' := AddAll(acc, WantedHosts(kept, ignorehosts, mylist));
    if next then
      var rest := Crawl(listing, ignorehosts, mylist, offset + ApiNum, acc');
      CrawlRun(rest.hosts, rest.requests + 1)
    else CrawlRun(acc', 1)
  }

  /** The crawl from `offset` adds the wanted hosts of the rest of the
      listing: each page is read once and no record is skipped. */
  lemma {:induction false} CrawlCoversRest(listing: seq<DirEntry>, ignorehosts: seq<string>, mylist: seq<Instance>,
                                           offset: nat, acc: seq<JsValue>)
    requires offset <= |listing|
    ensures Crawl(listing, ignorehosts, mylist, offset, acc).hosts
      == AddAll(acc, WantedHosts(listing[offset..], ignorehosts, mylist))
    decreases |listing| - offset
  {
    var l := PageAt(listing, offset);
    if |l| == Limit {
      var kept := l[..|l| - 1];
      var tail := listing[offset + ApiNum..];
      assert kept == listing[offset..offset + ApiNum];
      assert listing[offset..] == kept + tail;
      WantedHostsAppend(kept, tail, ignorehosts, mylist);
      var acc' := AddAll(acc, WantedHosts(kept, ignorehosts, mylist));
      assert Crawl(listing, ignorehosts, mylist, offset, acc).hosts
        == Crawl(listing, ignorehosts, mylist, offset + ApiNum, acc').hosts;
      CrawlCoversRest(listing, ignorehosts, mylist, offset + ApiNum, acc');
      AddAllAppend(acc, WantedHosts(kept, ignorehosts, mylist), WantedHosts(tail, ignorehosts, mylist));
    } else {
      assert l == listing[offset..];
    }
  }

  /** One request per 60 records from `offset` on, rounded up, and at
      least one. */
  lemma {:induction false} CrawlRequests(listing: seq<DirEntry>, ignorehosts: seq<string>, mylist: seq<Instance>,
                                         offset: nat, acc: seq<JsValue>)
    requires offset <= |listing|
    ensures Crawl(listing, ignorehosts, mylist, offset, acc).requests
      == (if |listing| - offset <= ApiNum then 1 else (|listing| - offset - 1) / ApiNum + 1)
    decreases |listing| - offset
  {
    var l := PageAt(listing, offset);
    if |l| == Limit {
      var kept := l[..|l| - 1];
      var acc' := AddAll(acc, WantedHosts(kept, ignorehosts, mylist));
      CrawlRequests(listing, ignorehosts, mylist, offset + ApiNum, acc');
      var n := |listing| - offset;
      assert n > ApiNum;
      assert (n - 1) / ApiNum == (n - ApiNum - 1) / ApiNum + 1;
    }
  }

  /** The exported crawl: every Calckey host of the directory that is
      responding (or never checked), not ignored and not already listed,
      once each, in directory order of first appearance; the directory is
      read in ceil(n / 60) requests (one for an empty directory). */
  function NotIncluded(listing: seq<DirEntry>, ignorehosts: seq<string>, mylist: seq<Instance>): (r: CrawlRun)
    ensures r.hosts == Dedup(WantedHosts(listing, ignorehosts, mylist))
    ensures NoDuplicates(r.hosts)
    ensures forall h :: h in r.hosts <==>
      exists i :: 0 <= i < |listing| && listing[i].host == h && Wanted(listing[i], ignorehosts, mylist)
    ensures r.requests == (if |listing| <= ApiNum then 1 else (|listing| - 1) / ApiNum + 1)
  {
    var r := Crawl(listing, ignorehosts, mylist, 0, []);
    CrawlCoversRest(listing, ignorehosts, mylist, 0, []);
    CrawlRequests(listing, ignorehosts, mylist, 0, []);
    assert listing[0..] == listing;
    var w := WantedHosts(listing, ignorehosts, mylist);
    DedupProperties(w);
    assert r.hosts == Dedup(w);
    assert forall h :: h in r.hosts <==> h in w;
    r
  }

  /** A listed url is never reported as missing. */
  lemma ListedHostsAreExcluded(listing: seq<DirEntry>, ignorehosts: seq<string>, mylist: seq<Instance>, i: int)
    requires 0 <= i < |mylist|
    ensures Some(Str(mylist[i].url)) !in NotIncluded(listing, ignorehosts, mylist).hosts
  {
  }
}

=== FILE: instances.dfy ===
/** The configured instance list entries. */
module Instances {
  import opened Js

  /** `{ url, name?, description?, langs? }` as loaded from the instance
      list; an absent optional field is `undefined` (None). */
  datatype Instance = Instance(url: string, name: JsValue, description: JsValue, langs: JsValue)
}

=== FILE: js.dfy ===
/** JSON values as JavaScript sees them after `JSON.parse`, with the
    language's truthiness, `||` and property reads. */
module Js {
  import opened Wrappers

  /** A parsed JSON document. Objects are maps: a parsed object has no
      duplicate keys and the core never depends on key order. */
  datatype Json =
    | Null
    | Bool(b: bool)
    | Num(n: real)
    | Str(s: string)
    | Arr(items: seq<Json>)
    | Obj(fields: map<string, Json>)

  /** A JavaScript value that is either a JSON value or `undefined` (None). */
  type JsValue = Option<Json>

  /** JavaScript truthiness of a JSON value (NaN cannot come out of JSON). */
  predicate Truthy(j: Json) {
    match j
    case Null => false
    case Bool(b) => b
    case Num(n) => n != 0.0
    case Str(s) => s != ""
    case Arr(_) => true
    case Obj(_) => true
  }

  /** Truthiness of a possibly undefined value; `undefined` is falsy. */
  predicate TruthyValue(v: JsValue) {
    v.Some? && Truthy(v.value)
  }

  /** `v == null`: JavaScript's loose equality with null holds for null and undefined. */
  predicate Nullish(v: JsValue) {
    v == None || v == Some(Null)
  }

  /** `v.key`. Reading a property of null or undefined throws in JavaScript,
      so the caller must rule that out. Only objects carry the keys the core
      reads; on every other value the read gives `undefined`. */
  function Get(v: JsValue, key: string): (r: JsValue)
    requires !Nullish(v)
    ensures r.Some? <==> v.value.Obj? && key in v.value.fields
    ensures r.Some? ==> r.value == v.value.fields[key]
  {
    match v.value
    case Obj(fields) => if key in fields then Some(fields[key]) else None
    case _ => None
  }

  /** `a || b` where the right operand is always defined. */
  function Or(a: JsValue, b: Json): (r: Json)
    ensures TruthyValue(a) ==> r == a.value
    ensures !TruthyValue(a) ==> r == b
  {
    if TruthyValue(a) then a.value else b
  }

  /** `v || null` */
  function OrNull(v: JsValue): (r: Json)
    ensures Truthy(r) <==> TruthyValue(v)
    ensures Truthy(r) ==> r == v.value
    ensures !Truthy(r) ==> r == Null
  {
    Or(v, Null)
  }

  /** `r` is what a chain `c0 || c1 || ... || fallback` evaluates to:
      the first truthy candidate, or the fallback when none is truthy.
      This is the declarative reading of a chain of `Or`s. */
  ghost predicate FirstTruthy(candidates: seq<JsValue>, fallback: Json, r: Json) {
    || (exists i :: 0 <= i < |candidates| && TruthyValue(candidates[i]) && r == candidates[i].value &&
          forall j :: 0 <= j < i ==> !TruthyValue(candidates[j]))
    || ((forall i :: 0 <= i < |candidates| ==> !TruthyValue(candidates[i])) && r == fallback)
  }

  /** A right-nested chain of `||` picks the first truthy operand. */
  function OrChain(candidates: seq<JsValue>, fallback: Json): (r: Json)
    ensures FirstTruthy(candidates, fallback, r)
  {
    if |candidates| == 0 then fallback
    else
      var rest := OrChain(candidates[1..], fallback);
      assert FirstTruthy(candidates[1..], fallback, rest);
      if TruthyValue(candidates[0]) then
        assert FirstTruthy(candidates, fallback, candidates[0].value) by {
          assert TruthyValue(candidates[0]) && candidates[0].value == candidates[0].value;
        }
        Or(candidates[0], rest)
      else
        assert FirstTruthy(candidates, fallback, rest) by {
          if exists i :: 0 <= i < |candidates[1..]| && TruthyValue(candidates[1..][i]) && rest == candidates[1..][i].value &&
              forall j :: 0 <= j < i ==> !TruthyValue(candidates[1..][j]) {
            var i :| 0 <= i < |candidates[1..]| && TruthyValue(candidates[1..][i]) && rest == candidates[1..][i].value &&
              forall j :: 0 <= j < i ==> !TruthyValue(candidates[1..][j]);
            assert candidates[i + 1] == candidates[1..][i];
            forall j | 0 <= j < i + 1
              ensures !TruthyValue(candidates[j])
            {
              if j > 0 { assert candidates[j] == candidates[1..][j - 1]; }
            }
          } else {
            forall j | 0 <= j < |candidates|
              ensures !TruthyValue(candidates[j])
            {
              if j > 0 { assert candidates[j] == candidates[1..][j - 1]; }
            }
          }
        }
        Or(candidates[0], rest)
  }
}

=== FILE: registry.dfy ===
/** The version registry built by `getVersions`: an insertion-ordered map
    from cleaned version strings to release records, and the per-repository
    vulnerability rule. */
module Registry {
  import opened Wrappers
  import Strings

  /** The repository whose vulnerable ranges are known. */
  const MisskeyRepo := "misskey-dev/misskey"
  /** Only this many of the newest tags of a repository are recorded. */
  const MaxTags: nat := 40

  /** The parts of the semver library the core calls, passed in as values
      because their internals are not part of this model. */
  datatype Semver = Semver(
    /** Loose cleaning of a version string; None is null. */
    clean: string -> Option<string>,
    /** Coercion of a version string to a valid version; None is null. */
    coerceValid: string -> Option<string>,
    /** The two `semver.satisfies` range tests for misskey-dev/misskey. */
    misskeyVulnerable: Option<string> -> bool)

  /** `hasVulnerability(repo, version)`: only misskey-dev/misskey has rules. */
  function HasVulnerability(lib: Semver, repo: string, version: Option<string>): (r: bool)
    ensures r ==> repo == MisskeyRepo
    ensures repo == MisskeyRepo ==> r == lib.misskeyVulnerable(version)
  {
    if repo == MisskeyRepo then lib.misskeyVulnerable(version) else false
  }

  /** A registry record: the repository, the tag's rank and the
      vulnerability flag. */
  datatype Release = Release(repo: string, count: nat, vulnerable: bool)

  /** Registry keys are what `semver.clean` returned, so null (None) is a
      possible key. */
  type Key = Option<string>

  datatype Entry = Entry(key: Key, release: Release)

  /** A JavaScript `Map` as the list of its entries in iteration order. */
  type Registry = seq<Entry>

  predicate UniqueKeys(reg: Registry) {
    forall i, j :: 0 <= i < j < |reg| ==> reg[i].key != reg[j].key
  }

  function Keys(reg: Registry): (r: seq<Key>)
    ensures |r| == |reg|
    ensures forall i :: 0 <= i < |reg| ==> r[i] == reg[i].key
  {
    if |reg| == 0 then [] else [reg[0].key] + Keys(reg[1..])
  }

  /** Reading key `k` of the map; None when the key is absent. */
  function Lookup(reg: Registry, k: Key): (r: Option<Release>)
    ensures r.None? <==> k !in Keys(reg)
    ensures r.Some? ==> exists i :: 0 <= i < |reg| && reg[i] == Entry(k, r.value)
  {
    if |reg| == 0 then None
    else if reg[0].key == k then Some(reg[0].release)
    else
      var r := Lookup(reg[1..], k);
      assert Keys(reg) == [reg[0].key] + Keys(reg[1..]);
      assert r.Some? ==> exists i :: 0 <= i < |reg[1..]| && reg[1..][i] == Entry(k, r.value);
      r
  }

  /** With unique keys, an entry is what `get` returns for its key. */
  lemma LookupEntry(reg: Registry, i: int)
    requires UniqueKeys(reg)
    requires 0 <= i < |reg|
    ensures Lookup(reg, reg[i].key) == Some(reg[i].release)
  {
    var r := Lookup(reg, reg[i].key);
    var j :| 0 <= j < |reg| && reg[j] == Entry(reg[i].key, r.value);
    assert i == j;
  }

  /** Writing `rel` under key `k`: an existing key keeps its position; a new key
      goes last. */
  function Set(reg: Registry, k: Key, rel: Release): (r: Registry)
    ensures k in Keys(reg) ==> Keys(r) == Keys(reg)
    ensures k !in Keys(reg) ==> Keys(r) == Keys(reg) + [k]
  {
    if |reg| == 0 then [Entry(k, rel)]
    else if reg[0].key == k then [Entry(k, rel)] + reg[1..]
    else
      var rest := Set(reg[1..], k, rel);
      assert Keys(reg) == [reg[0].key] + Keys(reg[1..]);
      assert Keys([reg[0]] + rest) == [reg[0].key] + Keys(rest);
      assert Keys(reg[1..]) + [k] == Keys(reg)[1..] + [k];
      [reg[0]] + rest
  }

  /** After `set`, `get` on the key gives the new record and every other
      key's record is unchanged. */
  lemma {:induction false} SetLookup(reg: Registry, k: Key, rel: Release, k': Key)
    ensures Lookup(Set(reg, k, rel), k') == if k' == k then Some(rel) else Lookup(reg, k')
    decreases |reg|
  {
    if |reg| > 0 && reg[0].key != k {
      SetLookup(reg[1..], k, rel, k');
      var r := Set(reg, k, rel);
      assert r[1..] == Set(reg[1..], k, rel);
    }
  }

  /** `set` keeps keys unique. */
  lemma SetUnique(reg: Registry, k: Key, rel: Release)
    requires UniqueKeys(reg)
    ensures UniqueKeys(Set(reg, k, rel))
  {
    var r := Set(reg, k, rel);
    forall i, j | 0 <= i < j < |r|
      ensures r[i].key != r[j].key
    {
      assert r[i].key == Keys(r)[i] && r[j].key == Keys(r)[j];
      if j < |reg| {
        assert Keys(r)[i] == reg[i].key && Keys(r)[j] == reg[j].key;
      } else {
        assert Keys(r)[i] == reg[i].key;
      }
    }
  }

  /** `set` writes no entry but the new one. */
  lemma {:induction false} SetEntries(reg: Registry, k: Key, rel: Release)
    ensures forall e :: e in Set(reg, k, rel) ==> e in reg || e == Entry(k, rel)
    decreases |reg|
  {
    if |reg| > 0 && reg[0].key != k {
      SetEntries(reg[1..], k, rel);
      var r := Set(reg, k, rel);
      assert r == [reg[0]] + Set(reg[1..], k, rel);
      assert forall e :: e in reg[1..] ==> e in reg;
    } else if |reg| > 0 {
      assert forall e :: e in reg[1..] ==> e in reg;
    }
  }

  /** What the tags endpoint of one Gitea-style repository gave:
      nothing usable (request failed, not OK, or body not an array), or
      the tag names, newest first. */
  datatype TagList = Unavailable | Listed(names: seq<string>)

  /** One configured "host/owner/name" repository and its tags. */
  datatype TagSource = TagSource(host: string, owner: string, name: string, tags: TagList)

  /** The configured string, as passed to `hasVulnerability`. */
  function RepoPath(src: TagSource): string {
    src.host + "/" + src.owner + "/" + src.name
  }

  /** The owner and name joined by a slash, recorded as the release's repo. */
  function RepoId(src: TagSource): string {
    src.owner + "/" + src.name
  }

  /** The tags that are used: the first 40, in order. */
  function UsedTags(src: TagSource): (r: seq<string>)
    ensures |r| <= MaxTags
    ensures src.tags.Unavailable? ==> r == []
    ensures src.tags.Listed? ==> |r| <= |src.tags.names| && r == src.tags.names[..|r|]
    ensures src.tags.Listed? && |src.tags.names| >= MaxTags ==> |r| == MaxTags
    ensures src.tags.Listed? && |src.tags.names| < MaxTags ==> r == src.tags.names
  {
    match src.tags
    case Unavailable => []
    case Listed(names) => if |names| <= MaxTags then names else names[..MaxTags]
  }

  /** The record written for tag `i` of a source. */
  function ReleaseFor(lib: Semver, src: TagSource, i: nat): Release
    requires i < |UsedTags(src)|
  {
    Release(RepoId(src), i, HasVulnerability(lib, RepoPath(src), lib.clean(UsedTags(src)[i])))
  }

  /** The inner loop of `getVersions` from tag `i` on. */
  function AddTagsFrom(lib: Semver, reg: Registry, src: TagSource, i: nat): (r: Registry)
    requires i <= |UsedTags(src)|
    decreases |UsedTags(src)| - i
  {
    if i == |UsedTags(src)| then reg
    else AddTagsFrom(lib, Set(reg, lib.clean(UsedTags(src)[i]), ReleaseFor(lib, src, i)), src, i + 1)
  }

  /** The outer loop of `getVersions` over the configured repositories. */
  function BuildRegistry(lib: Semver, sources: seq<TagSource>): (r: Registry)
    decreases |sources|
  {
    if |sources| == 0 then []
    else AddTagsFrom(lib, BuildRegistry(lib, sources[..|sources| - 1]), sources[|sources| - 1], 0)
  }

  /** The repositories `getVersions` is configured with (`gtRepos`): none.
      The GitHub loop that follows only reads a page count and records
      nothing. */
  const ConfiguredSources: seq<TagSource> := []

  /** With the configured repositories the registry is empty. */
  lemma ConfiguredRegistryIsEmpty(lib: Semver)
    ensures BuildRegistry(lib, ConfiguredSources) == []
  {
  }

  /** A "host/owner/name" path is never the rule table's two-part name:
      it has a '/' at two different positions, the name at one only. */
  lemma PathIsNotMisskey(src: TagSource)
    ensures RepoPath(src) != MisskeyRepo
  {
    var p := RepoPath(src);
    var a := |src.host|;
    var b := |src.host| + 1 + |src.owner|;
    assert p[a] == '/';
    assert p[b] == '/';
  }

  /** Some tag of `src` from position `i` on cleans to `k`. */
  ghost predicate CleansFrom(lib: Semver, src: TagSource, i: nat, k: Key) {
    exists j :: i <= j < |UsedTags(src)| && lib.clean(UsedTags(src)[j]) == k
  }

  /** Some used tag of some source cleans to `k`. */
  ghost predicate ListedSomewhere(lib: Semver, sources: seq<TagSource>, k: Key) {
    exists s :: 0 <= s < |sources| && CleansFrom(lib, sources[s], 0, k)
  }

  /** Every entry a source adds: keys unique, counts below 40, never
      flagged vulnerable, and a key is present exactly when it was there
      before or cleans from one of the used tags from `i` on. */
  lemma {:induction false} AddTagsProperties(lib: Semver, reg: Registry, src: TagSource, i: nat)
    requires i <= |UsedTags(src)|
    requires UniqueKeys(reg)
    ensures var r := AddTagsFrom(lib, reg, src, i);
      && UniqueKeys(r)
      && (forall e :: e in r ==> e in reg || (e.release.count < MaxTags && !e.release.vulnerable))
      && (forall k :: k in Keys(r) <==> k in Keys(reg) || CleansFrom(lib, src, i, k))
    decreases |UsedTags(src)| - i
  {
    if i < |UsedTags(src)| {
      var k := lib.clean(UsedTags(src)[i]);
      var reg' := Set(reg, k, ReleaseFor(lib, src, i));
      SetUnique(reg, k, ReleaseFor(lib, src, i));
      SetEntries(reg, k, ReleaseFor(lib, src, i));
      PathIsNotMisskey(src);
      AddTagsProperties(lib, reg', src, i + 1);
      assert forall k' :: k' in Keys(reg') <==> k' in Keys(reg) || k' == k;
    }
  }

  /** The registry `getVersions` builds: keys unique, every count is a
      position among the first 40 tags, no release is flagged vulnerable
      (the rule table is consulted with the three-part path), and a key is
      present exactly when one of the first 40 tags of some reachable
      repository cleans to it. */
  lemma {:induction false} BuildRegistryProperties(lib: Semver, sources: seq<TagSource>)
    ensures var r := BuildRegistry(lib, sources);
      && UniqueKeys(r)
      && (forall e :: e in r ==> e.release.count < MaxTags && !e.release.vulnerable)
      && (forall k :: k in Keys(r) <==> ListedSomewhere(lib, sources, k))
    decreases |sources|
  {
    if |sources| > 0 {
      var init := sources[..|sources| - 1];
      var last := sources[|sources| - 1];
      BuildRegistryProperties(lib, init);
      var prev := BuildRegistry(lib, init);
      assert BuildRegistry(lib, sources) == AddTagsFrom(lib, prev, last, 0);
      AddTagsProperties(lib, prev, last, 0);
      ListedSomewhereSnoc(lib, sources);
    }
  }

  /** A key listed by some source is listed by an earlier source or by the last. */
  lemma ListedSomewhereSnoc(lib: Semver, sources: seq<TagSource>)
    requires |sources| > 0
    ensures forall k :: ListedSomewhere(lib, sources, k) <==>
      ListedSomewhere(lib, sources[..|sources| - 1], k) || CleansFrom(lib, sources[|sources| - 1], 0, k)
  {
    var init := sources[..|sources| - 1];
    var last := sources[|sources| - 1];
    forall k
      ensures ListedSomewhere(lib, sources, k) <==> ListedSomewhere(lib, init, k) || CleansFrom(lib, last, 0, k)
    {
      if ListedSomewhere(lib, init, k) {
        var s :| 0 <= s < |init| && CleansFrom(lib, init[s], 0, k);
        assert sources[s] == init[s];
      }
      if ListedSomewhere(lib, sources, k) {
        var s :| 0 <= s < |sources| && CleansFrom(lib, sources[s], 0, k);
        if s < |init| {
          assert sources[s] == init[s];
        }
      }
    }
  }

  /** Last write wins within one repository: the record for a key carries
      the position of the LAST of the first 40 tags that clean to it. */
  lemma {:induction false} AddTagsLastWriteWins(lib: Semver, reg: Registry, src: TagSource, i: nat, k: Key)
    requires i <= |UsedTags(src)|
    requires UniqueKeys(reg)
    requires CleansFrom(lib, src, i, k)
    ensures var rel := Lookup(AddTagsFrom(lib, reg, src, i), k);
      && rel.Some?
      && rel.value.count < |UsedTags(src)|
      && lib.clean(UsedTags(src)[rel.value.count]) == k
      && rel.value.repo == RepoId(src)
      && forall j :: rel.value.count < j < |UsedTags(src)| ==> lib.clean(UsedTags(src)[j]) != k
    decreases |UsedTags(src)| - i
  {
    var ki := lib.clean(UsedTags(src)[i]);
    var reg' := Set(reg, ki, ReleaseFor(lib, src, i));
    SetUnique(reg, ki, ReleaseFor(lib, src, i));
    SetLookup(reg, ki, ReleaseFor(lib, src, i), k);
    if CleansFrom(lib, src, i + 1, k) {
      AddTagsLastWriteWins(lib, reg', src, i + 1, k);
    } else {
      assert ki == k;
      AddTagsKeepsLookup(lib, reg', src, i + 1, k);
    }
  }

  /** Tags that do not clean to `k` leave its record alone. */
  lemma {:induction false} AddTagsKeepsLookup(lib: Semver, reg: Registry, src: TagSource, i: nat, k: Key)
    requires i <= |UsedTags(src)|
    requires forall j :: i <= j < |UsedTags(src)| ==> lib.clean(UsedTags(src)[j]) != k
    ensures Lookup(AddTagsFrom(lib, reg, src, i), k) == Lookup(reg, k)
    decreases |UsedTags(src)| - i
  {
    if i < |UsedTags(src)| {
      var ki := lib.clean(UsedTags(src)[i]);
      SetLookup(reg, ki, ReleaseFor(lib, src, i), k);
      AddTagsKeepsLookup(lib, Set(reg, ki, ReleaseFor(lib, src, i)), src, i + 1, k);
    }
  }
}

=== FILE: resolver.dfy ===
/** Version resolution: mapping the version an instance reports to a
    registry record by exact key, else by string prefix, else a default. */
module Resolver {
  import opened Wrappers
  import opened Strings
  import opened Registry

  /** A resolved version: whether the key matched exactly, the release's
      repository, its rank and its vulnerability flag. */
  datatype Resolution = Resolution(just: bool, repo: string, count: int, vulnerable: bool)

  /** Rank given to versions that match nothing. */
  const DefaultCount := 1500

  /** The default resolution: misskey-dev/misskey at rank 1500, neither
      exact nor vulnerable (both flags are absent, hence falsy). */
  const Default := Resolution(false, MisskeyRepo, DefaultCount, false)

  function FromRelease(rel: Release, just: bool): Resolution {
    Resolution(just, rel.repo, rel.count, rel.vulnerable)
  }

  /** A key as `startsWith` sees it: null becomes the string "null". */
  function KeyText(k: Key): string {
    match k
    case None => "null"
    case Some(s) => s
  }

  /** The loop's test: the cleaned version starts with the key, or (for
      misskey-dev/misskey entries only) the coerced version does. */
  predicate Matches(sem1: Option<string>, sem2: Option<string>, e: Entry) {
    || (sem1.Some? && StartsWith(sem1.value, KeyText(e.key)))
    || (sem2.Some? && sem2.value != "" && e.release.repo == MisskeyRepo && StartsWith(sem2.value, KeyText(e.key)))
  }

  /** A matching entry of rank 0, which ends the loop at once. */
  predicate ZeroMatch(sem1: Option<string>, sem2: Option<string>, e: Entry) {
    Matches(sem1, sem2, e) && e.release.count == 0
  }

  ghost predicate FirstZeroMatch(entries: seq<Entry>, sem1: Option<string>, sem2: Option<string>, i: int) {
    && 0 <= i < |entries|
    && ZeroMatch(sem1, sem2, entries[i])
    && forall j :: 0 <= j < i ==> !ZeroMatch(sem1, sem2, entries[j])
  }

  ghost predicate NoZeroMatch(entries: seq<Entry>, sem1: Option<string>, sem2: Option<string>) {
    forall j :: 0 <= j < |entries| ==> !ZeroMatch(sem1, sem2, entries[j])
  }

  /** Some matching entry has a rank of at most `bound`. */
  ghost predicate MatchAtMost(entries: seq<Entry>, sem1: Option<string>, sem2: Option<string>, bound: int) {
    exists j :: 0 <= j < |entries| && Matches(sem1, sem2, entries[j]) && entries[j].release.count <= bound
  }

  /** `i` is a matching entry of the smallest rank among the matches that
      no later match ties. */
  ghost predicate LastMinimalMatch(entries: seq<Entry>, sem1: Option<string>, sem2: Option<string>, i: int) {
    && 0 <= i < |entries|
    && Matches(sem1, sem2, entries[i])
    && (forall j :: 0 <= j < |entries| && Matches(sem1, sem2, entries[j]) ==>
          entries[i].release.count <= entries[j].release.count)
    && (forall j :: i < j < |entries| && Matches(sem1, sem2, entries[j]) ==>
          entries[i].release.count < entries[j].release.count)
  }

  /** The loop over the registry entries in insertion order, with
      `current` as it stands before the first entry. */
  function Scan(entries: seq<Entry>, sem1: Option<string>, sem2: Option<string>, current: Resolution): Resolution
    decreases |entries|
  {
    if |entries| == 0 then current
    else
      var e := entries[0];
      if Matches(sem1, sem2, e) && e.release.count == 0 then FromRelease(e.release, false)
      else if Matches(sem1, sem2, e) && current.count >= e.release.count then
        Scan(entries[1..], sem1, sem2, FromRelease(e.release, false))
      else
        Scan(entries[1..], sem1, sem2, current)
  }

  /** A rank-0 match ends the loop: the first one is returned. */
  lemma {:induction false} ScanStopsAtFirstZero(entries: seq<Entry>, sem1: Option<string>, sem2: Option<string>,
                                                current: Resolution, i: int)
    requires FirstZeroMatch(entries, sem1, sem2, i)
    ensures Scan(entries, sem1, sem2, current) == FromRelease(entries[i].release, false)
    decreases |entries|
  {
    if i > 0 {
      var e := entries[0];
      assert !ZeroMatch(sem1, sem2, e);
      var next := if Matches(sem1, sem2, e) && current.count >= e.release.count
                  then FromRelease(e.release, false) else current;
      assert Scan(entries, sem1, sem2, current) == Scan(entries[1..], sem1, sem2, next);
      assert FirstZeroMatch(entries[1..], sem1, sem2, i - 1) by {
        forall j | 0 <= j < i - 1
          ensures !ZeroMatch(sem1, sem2, entries[1..][j])
        {
          assert entries[1..][j] == entries[j + 1];
        }
      }
      ScanStopsAtFirstZero(entries[1..], sem1, sem2, next, i - 1);
    }
  }

  /** Without a match of rank at most the starting one, the loop returns
      the starting value. */
  lemma {:induction false} ScanKeepsCurrent(entries: seq<Entry>, sem1: Option<string>, sem2: Option<string>,
                                            current: Resolution)
    requires current.count >= 0
    requires !MatchAtMost(entries, sem1, sem2, current.count)
    ensures Scan(entries, sem1, sem2, current) == current
    decreases |entries|
  {
    if |entries| > 0 {
      var e := entries[0];
      assert !(Matches(sem1, sem2, e) && e.release.count <= current.count);
      assert !MatchAtMost(entries[1..], sem1, sem2, current.count);
      ScanKeepsCurrent(entries[1..], sem1, sem2, current);
    }
  }

  /** Without rank-0 matches, a match of rank at most the starting one
      means the loop returns the last of the smallest-rank matches. */
  lemma {:induction false} ScanFindsLastMinimal(entries: seq<Entry>, sem1: Option<string>, sem2: Option<string>,
                                                current: Resolution)
    requires NoZeroMatch(entries, sem1, sem2)
    requires MatchAtMost(entries, sem1, sem2, current.count)
    ensures exists i :: (LastMinimalMatch(entries, sem1, sem2, i) &&
      Scan(entries, sem1, sem2, current) == FromRelease(entries[i].release, false))
    decreases |entries|
  {
    var e := entries[0];
    var tail := entries[1..];
    var r := Scan(entries, sem1, sem2, current);
    assert NoZeroMatch(tail, sem1, sem2) by {
      assert forall j :: 0 <= j < |tail| ==> tail[j] == entries[j + 1];
    }
    var taken := Matches(sem1, sem2, e) && current.count >= e.release.count;
    var next := if taken then FromRelease(e.release, false) else current;
    assert r == Scan(tail, sem1, sem2, next);
    MatchAtMostSplit(entries, sem1, sem2, current.count);
    if MatchAtMost(tail, sem1, sem2, next.count) {
      ScanFindsLastMinimal(tail, sem1, sem2, next);
      var i :| LastMinimalMatch(tail, sem1, sem2, i) && r == FromRelease(tail[i].release, false);
      var j :| 0 <= j < |tail| && Matches(sem1, sem2, tail[j]) && tail[j].release.count <= next.count;
      assert tail[i].release.count <= next.count;
      LastMinimalExtend(entries, sem1, sem2, i);
    } else {
      assert taken;
      ScanKeepsCurrent(tail, sem1, sem2, next);
      LastMinimalFirst(entries, sem1, sem2);
    }
  }

  /** A match of rank at most `bound` is the head or lies in the tail. */
  lemma MatchAtMostSplit(entries: seq<Entry>, sem1: Option<string>, sem2: Option<string>, bound: int)
    requires MatchAtMost(entries, sem1, sem2, bound)
    ensures (Matches(sem1, sem2, entries[0]) && entries[0].release.count <= bound)
      || MatchAtMost(entries[1..], sem1, sem2, bound)
  {
    var j :| 0 <= j < |entries| && Matches(sem1, sem2, entries[j]) && entries[j].release.count <= bound;
    if j > 0 {
      assert entries[1..][j - 1] == entries[j];
    }
  }

  /** A last minimal match of the tail stays one when the head is no
      smaller a match. */
  lemma LastMinimalExtend(entries: seq<Entry>, sem1: Option<string>, sem2: Option<string>, i: int)
    requires |entries| > 0
    requires LastMinimalMatch(entries[1..], sem1, sem2, i)
    requires Matches(sem1, sem2, entries[0]) ==> entries[i + 1].release.count <= entries[0].release.count
    ensures LastMinimalMatch(entries, sem1, sem2, i + 1)
  {
    assert forall j :: 0 < j < |entries| ==> entries[j] == entries[1..][j - 1];
  }

  /** A matching head below every match of the tail is the last minimal match. */
  lemma LastMinimalFirst(entries: seq<Entry>, sem1: Option<string>, sem2: Option<string>)
    requires |entries| > 0
    requires Matches(sem1, sem2, entries[0])
    requires !MatchAtMost(entries[1..], sem1, sem2, entries[0].release.count)
    ensures LastMinimalMatch(entries, sem1, sem2, 0)
  {
    assert forall j :: 0 < j < |entries| ==> entries[j] == entries[1..][j - 1];
  }

  /** The prefix stage started from the default, in the terms `Resolve`
      states it. */
  lemma ResolvePrefixFacts(reg: Registry, sem1: Option<string>, sem2: Option<string>)
    ensures var r := Scan(reg, sem1, sem2, Default);
      && (r == Default || exists j :: 0 <= j < |reg| && Matches(sem1, sem2, reg[j]) && r == FromRelease(reg[j].release, false))
      && r.count <= DefaultCount
      && (forall j :: 0 <= j < |reg| && Matches(sem1, sem2, reg[j]) ==> r.count <= reg[j].release.count)
      && (forall i :: FirstZeroMatch(reg, sem1, sem2, i) ==> r == FromRelease(reg[i].release, false))
      && (NoZeroMatch(reg, sem1, sem2) && MatchAtMost(reg, sem1, sem2, DefaultCount) ==>
            exists i :: LastMinimalMatch(reg, sem1, sem2, i) && r == FromRelease(reg[i].release, false))
      && (!MatchAtMost(reg, sem1, sem2, DefaultCount) ==> r == Default)
  {
    var r := Scan(reg, sem1, sem2, Default);
    forall i | FirstZeroMatch(reg, sem1, sem2, i)
      ensures r == FromRelease(reg[i].release, false)
    {
      ScanStopsAtFirstZero(reg, sem1, sem2, Default, i);
    }
    if !MatchAtMost(reg, sem1, sem2, DefaultCount) {
      ScanKeepsCurrent(reg, sem1, sem2, Default);
    } else if NoZeroMatch(reg, sem1, sem2) {
      ScanFindsLastMinimal(reg, sem1, sem2, Default);
    } else {
      var j :| 0 <= j < |reg| && ZeroMatch(sem1, sem2, reg[j]);
      var i := FirstZeroIndex(reg, sem1, sem2, j);
      ScanStopsAtFirstZero(reg, sem1, sem2, Default, i);
      assert r.count == 0;
    }
  }

  /** Where there is a rank-0 match there is a first one. */
  lemma FirstZeroIndex(entries: seq<Entry>, sem1: Option<string>, sem2: Option<string>, j: int) returns (i: int)
    requires 0 <= j < |entries| && ZeroMatch(sem1, sem2, entries[j])
    ensures FirstZeroMatch(entries, sem1, sem2, i)
    decreases j
  {
    if k :| 0 <= k < j && ZeroMatch(sem1, sem2, entries[k]) {
      i := FirstZeroIndex(entries, sem1, sem2, k);
    } else {
      i := j;
    }
  }

  /** The resolver of `getInstancesInfos` for the version string an
      instance reports. */
  function Resolve(lib: Semver, reg: Registry, version: string): (r: Resolution)
    requires UniqueKeys(reg)
    // an exact hit on the cleaned version is returned as such
    ensures Lookup(reg, lib.clean(version)).Some? ==>
      r == FromRelease(Lookup(reg, lib.clean(version)).value, true)
    ensures r.just <==> Lookup(reg, lib.clean(version)).Some?
    // a prefix result is a matching entry or the default, and beats every match
    ensures !r.just ==> r == Default || exists j :: (0 <= j < |reg| &&
      Matches(lib.clean(version), lib.coerceValid(version), reg[j]) && r == FromRelease(reg[j].release, false))
    ensures !r.just ==> r.count <= DefaultCount && forall j :: 0 <= j < |reg| ==>
      (Matches(lib.clean(version), lib.coerceValid(version), reg[j]) ==> r.count <= reg[j].release.count)
    ensures !r.just ==> forall i :: FirstZeroMatch(reg, lib.clean(version), lib.coerceValid(version), i) ==>
      r == FromRelease(reg[i].release, false)
    // with no rank-0 match but some match ranked at most 1500 (a tie with
    // the default included), the last of the smallest-rank matches
    ensures !r.just && NoZeroMatch(reg, lib.clean(version), lib.coerceValid(version)) &&
            MatchAtMost(reg, lib.clean(version), lib.coerceValid(version), DefaultCount) ==>
      exists i :: LastMinimalMatch(reg, lib.clean(version), lib.coerceValid(version), i) &&
        r == FromRelease(reg[i].release, false)
    // no match ranked at most 1500: the default, which carries no vulnerability flag
    ensures !r.just && !MatchAtMost(reg, lib.clean(version), lib.coerceValid(version), DefaultCount) ==>
      r == Default
  {
    var sem1 := lib.clean(version);
    match Lookup(reg, sem1)
    case Some(rel) => FromRelease(rel, true)
    case None =>
      var sem2 := lib.coerceValid(version);
      var r := Scan(reg, sem1, sem2, Default);
      ResolvePrefixFacts(reg, sem1, sem2);
      r
  }
}

=== FILE: stable_sort.dfy ===
/** A stable sort into non-increasing key order: the behaviour of the
    JavaScript array sort (stable) with a comparator ordering by key,
    highest first. */
module StableSort {

  ghost predicate SortedDesc<T>(key: T -> real, s: seq<T>) {
    forall i, j :: 0 <= i < j < |s| ==> key(s[i]) >= key(s[j])
  }

  /** The elements of `s` whose key is `k`, in their order in `s`. */
  function WithKey<T>(key: T -> real, s: seq<T>, k: real): (r: seq<T>)
    ensures |r| <= |s|
  {
    if |s| == 0 then []
    else if key(s[0]) == k then [s[0]] + WithKey(key, s[1..], k)
    else WithKey(key, s[1..], k)
  }

  lemma {:induction false} WithKeyAppend<T>(key: T -> real, a: seq<T>, b: seq<T>, k: real)
    ensures WithKey(key, a + b, k) == WithKey(key, a, k) + WithKey(key, b, k)
    decreases |a|
  {
    if |a| == 0 {
      assert a + b == b;
    } else {
      var ab := a + b;
      assert ab[0] == a[0];
      assert ab[1..] == a[1..] + b;
      WithKeyAppend(key, a[1..], b, k);
      if key(a[0]) == k {
        calc {
          WithKey(key, ab, k);
          [a[0]] + WithKey(key, a[1..] + b, k);
          [a[0]] + (WithKey(key, a[1..], k) + WithKey(key, b, k));
          ([a[0]] + WithKey(key, a[1..], k)) + WithKey(key, b, k);
        }
      }
    }
  }

  /** Nothing in a sorted list whose head is below `k` has key `k`. */
  lemma {:induction false} WithKeyBelow<T>(key: T -> real, s: seq<T>, k: real)
    requires SortedDesc(key, s)
    requires |s| > 0 && key(s[0]) < k
    ensures WithKey(key, s, k) == []
    decreases |s|
  {
    if |s| > 1 {
      WithKeyBelow(key, s[1..], k);
    }
  }

  /** An element no smaller than the head of a sorted list can go in front. */
  lemma PrependSorted<T>(key: T -> real, h: T, t: seq<T>)
    requires SortedDesc(key, t)
    requires |t| > 0 ==> key(h) >= key(t[0])
    ensures SortedDesc(key, [h] + t)
  {
    var r := [h] + t;
    forall i, j | 0 <= i < j < |r|
      ensures key(r[i]) >= key(r[j])
    {
      if i == 0 {
        assert r[j] == t[j - 1];
        assert key(t[0]) >= key(t[j - 1]) || j == 1;
      } else {
        assert r[i] == t[i - 1] && r[j] == t[j - 1];
      }
    }
  }

  /** Inserting `x` after every element whose key is at least its own. */
  function Insert<T>(key: T -> real, x: T, s: seq<T>): (r: seq<T>)
    ensures multiset(r) == multiset(s) + multiset{x}
    ensures |r| == |s| + 1
    ensures r[0] == x || (|s| > 0 && r[0] == s[0])
    ensures SortedDesc(key, s) ==> SortedDesc(key, r)
    decreases |s|
  {
    if |s| == 0 then [x]
    else if key(s[0]) >= key(x) then
      var rest := Insert(key, x, s[1..]);
      assert s == [s[0]] + s[1..];
      var r := [s[0]] + rest;
      assert SortedDesc(key, s) ==> SortedDesc(key, r) by {
        if SortedDesc(key, s) {
          assert SortedDesc(key, s[1..]);
          assert |s| > 1 ==> key(s[0]) >= key(s[1]);
          PrependSorted(key, s[0], rest);
        }
      }
      r
    else
      var r := [x] + s;
      assert SortedDesc(key, s) ==> SortedDesc(key, r) by {
        if SortedDesc(key, s) {
          PrependSorted(key, x, s);
        }
      }
      r
  }

  /** Inserting into a sorted list puts `x` after every element of equal
      key that was already there. */
  lemma {:induction false} InsertKeepsOrderOfEqual<T>(key: T -> real, x: T, s: seq<T>, k: real)
    requires SortedDesc(key, s)
    ensures WithKey(key, Insert(key, x, s), k) == WithKey(key, s, k) + (if key(x) == k then [x] else [])
    decreases |s|
  {
    if |s| == 0 {
      assert [x][1..] == [];
    } else if key(s[0]) >= key(x) {
      assert SortedDesc(key, s[1..]);
      InsertKeepsOrderOfEqual(key, x, s[1..], k);
      var r := Insert(key, x, s);
      assert r[0] == s[0] && r[1..] == Insert(key, x, s[1..]);
    } else {
      var r := Insert(key, x, s);
      assert r[0] == x && r[1..] == s;
      if key(x) == k {
        WithKeyBelow(key, s, k);
      }
    }
  }

  /** The stable sort: a permutation of the input, non-increasing in key,
      in which the elements of each key keep their input order. */
  function SortDesc<T>(key: T -> real, s: seq<T>): (r: seq<T>)
    ensures multiset(r) == multiset(s)
    ensures |r| == |s|
    ensures SortedDesc(key, r)
    ensures forall k :: WithKey(key, r, k) == WithKey(key, s, k)
    decreases |s|
  {
    if |s| == 0 then []
    else
      var init := s[..|s| - 1];
      var last := s[|s| - 1];
      assert s == init + [last];
      var sortedInit := SortDesc(key, init);
      var r := Insert(key, last, sortedInit);
      forall k
        ensures WithKey(key, r, k) == WithKey(key, s, k)
      {
        InsertKeepsOrderOfEqual(key, last, sortedInit, k);
        WithKeyAppend(key, init, [last], k);
        assert [last][1..] == [];
      }
      r
  }

  function MapSeq<A, B>(f: A -> B, s: seq<A>): (r: seq<B>)
    ensures |r| == |s|
    ensures forall i :: 0 <= i < |s| ==> r[i] == f(s[i])
  {
    seq(|s|, i requires 0 <= i < |s| => f(s[i]))
  }

  lemma MapAppend<A, B>(f: A -> B, a: seq<A>, b: seq<A>)
    ensures MapSeq(f, a + b) == MapSeq(f, a) + MapSeq(f, b)
  {
    var l, r := MapSeq(f, a + b), MapSeq(f, a) + MapSeq(f, b);
    assert |l| == |r|;
    forall i | 0 <= i < |l|
      ensures l[i] == r[i]
    {
      if i < |a| {
        assert (a + b)[i] == a[i];
      } else {
        assert (a + b)[i] == b[i - |a|];
      }
    }
  }

  /** Removing one element of a sequence removes it from the multiset. */
  lemma RemoveAt<A>(b: seq<A>, j: int)
    requires 0 <= j < |b|
    ensures multiset(b[..j] + b[j + 1..]) == multiset(b) - multiset{b[j]}
  {
    assert b == b[..j] + [b[j]] + b[j + 1..];
  }

  /** Where the last element of `a` sits in a permutation `b` of it. */
  lemma Split<A>(init: seq<A>, x: A, b: seq<A>) returns (pre: seq<A>, post: seq<A>)
    requires multiset(init + [x]) == multiset(b)
    ensures b == pre + [x] + post
    ensures multiset(init) == multiset(pre + post)
  {
    assert x in multiset(b);
    var j :| 0 <= j < |b| && b[j] == x;
    pre, post := b[..j], b[j + 1..];
    RemoveAt(b, j);
    assert b == pre + [x] + post;
  }

  /** Putting `x` back on both sides keeps the images permuted. */
  lemma MapPermutesStep<A, B>(f: A -> B, init: seq<A>, x: A, pre: seq<A>, post: seq<A>)
    requires multiset(MapSeq(f, init)) == multiset(MapSeq(f, pre + post))
    ensures multiset(MapSeq(f, init + [x])) == multiset(MapSeq(f, pre + [x] + post))
  {
    MapAppend(f, init, [x]);
    MapAppend(f, pre + [x], post);
    MapAppend(f, pre, [x]);
    MapAppend(f, pre, post);
  }

  /** Mapping a permutation gives a permutation of the images. */
  lemma {:induction false} MapPermutes<A, B>(f: A -> B, a: seq<A>, b: seq<A>)
    requires multiset(a) == multiset(b)
    ensures multiset(MapSeq(f, a)) == multiset(MapSeq(f, b))
    decreases |a|
  {
    if |a| == 0 {
      assert |b| == |multiset(b)| == 0;
    } else {
      var init := a[..|a| - 1];
      var x := a[|a| - 1];
      assert a == init + [x];
      var pre, post := Split(init, x, b);
      MapPermutes(f, init, pre + post);
      MapPermutesStep(f, init, x, pre, post);
    }
  }

  /** Appending `x` to one of three concatenated parts adds it once to the
      whole. */
  lemma MultisetSnoc3<A>(a: seq<A>, b: seq<A>, c: seq<A>, x: A, part: int)
    requires 0 <= part < 3
    ensures part == 0 ==> multiset((a + [x]) + b + c) == multiset(a + b + c) + multiset{x}
    ensures part == 1 ==> multiset(a + (b + [x]) + c) == multiset(a + b + c) + multiset{x}
    ensures part == 2 ==> multiset(a + b + (c + [x])) == multiset(a + b + c) + multiset{x}
  {
  }

  /** One more element on both sides keeps two sequences permutations of
      each other. */
  lemma MultisetStep<A>(r1: seq<A>, r0: seq<A>, i1: seq<A>, i0: seq<A>, x: A)
    requires multiset(r0) == multiset(i0)
    requires multiset(r1) == multiset(r0) + multiset{x}
    requires i1 == i0 + [x]
    ensures multiset(r1) == multiset(i1)
  {
  }
}

=== FILE: strings.dfy ===
/** The few JavaScript string operations the core relies on. */
module Strings {

  /** `p` is a prefix of `s`. */
  predicate StartsWith(s: string, p: string) {
    |p| <= |s| && s[..|p|] == p
  }

  /** `t` occurs in `s`: some suffix of `s` starts with `t`. */
  predicate Includes(s: string, t: string) {
    StartsWith(s, t) || (|s| > 0 && Includes(s[1..], t))
  }

  /** Nothing longer than `s` occurs in `s`. */
  lemma IncludesNeedsRoom(s: string, t: string)
    ensures Includes(s, t) ==> |t| <= |s|
  {
    if |s| > 0 {
      IncludesNeedsRoom(s[1..], t);
    }
  }

  /** Lower-casing of one character; only the ASCII letters are mapped. */
  function LowerChar(c: char): char {
    if 'A' <= c <= 'Z' then (c as int + 32) as char else c
  }

  /** Lower-casing, restricted to the ASCII letters. */
  function ToLower(s: string): (r: string)
    ensures |r| == |s|
    ensures forall i :: 0 <= i < |s| ==> r[i] == LowerChar(s[i])
  {
    if |s| == 0 then "" else [LowerChar(s[0])] + ToLower(s[1..])
  }
}

=== FILE: wrappers.dfy ===
/** The Option datatype used throughout the model. */
module Wrappers {

  /** `None` plays the part of JavaScript's `undefined` or `null`,
      depending on where it is used; each use site says which. */
  datatype Option<+T> = None | Some(value: T)
}
